=== FILE: README.md ===
# GraphXfer: pattern rewriting of quantum circuit graphs

This project is a Dafny model of the rewrite engine `GraphXfer` in Quartz's `tasograph` library.

A rewrite rule pairs a source pattern with an equivalent destination pattern. Each pattern is a list of pattern operators (`OpX`) connected by pattern wires (`TensorX`). A wire is open when it carries a value from outside the pattern; otherwise it is bound to an output slot of an earlier pattern operator.

Given a concrete circuit graph, the engine works in three steps:

- It searches depth first for every way to bind the source operators to concrete operators (`can_match`, `match`, `unmatch`, `run`).
- For every complete binding, it builds a replacement graph (`create_new_operator`, `create_new_graph`).
- It keeps the replacement graphs that are loop-free, cheap enough, small enough and new.

## Modules

| file | module | contents |
|---|---|---|
| `base.dfy` | `Base` | Concrete operators, edges, the searched graph as in-edge lists, and the edge sets of a built graph. |
| `pattern.dfy` | `Pattern` | `TensorX` and its `TensorXCompare` order, `OpX`, the fixed part of a rule, `new_tensor` and `map_output`. |
| `construct.dfy` | `Construct` | The constructor that builds a rule from two templates. |
| `multimap.dfy` | `MultiMap` | The open-wire multimap `mappedInputs`. |
| `matching.dfy` | `Matching` | `can_match`, `match` and `unmatch` over the live matching state. |
| `newgraph.dfy` | `NewGraph` | `create_new_operator`, the boundary check and `create_new_graph`. |
| `search.dfy` | `Search` | `run`: the backtracking driver and its terminal filters. |
| `findings.dfy` | `Findings` | The redirection step of `create_new_graph` as written, and an input on which it fails. |

## Representation

Pattern operators are indices into the rule's source or destination list, not pointers. In a `TensorX`, `op == None` stands for the NULL operator of an open wire.

The `mapOp` field of a source operator lives in the matching state as `mapOp: map<nat, Op>`. A missing key is a cleared (NULL) binding. Destination operators are instantiated into a sequence `dstMap`.

The searched graph maps every operator to its in-edges. They are listed in the iteration order of the in-edge set, so "the first in-edge at slot `i`" is defined. Iteration over the keys of `inEdges` is an explicit sequence `order`.

`mappedInputs` is a map from wire identity to the non-empty list of observations under it, oldest first:

- `insert` appends;
- `find` returns the first entry, as the usual red-black-tree multimap does;
- `unmatch` erases that first entry.

Every operation is a pure function. `can_match` takes the matching state as an input and returns only a verdict, so it cannot change the state. The searched graph is never changed either.

A template is abstracted to its qubit count, its parameter count, its hyperedges in order and its final node per qubit. Qubit `i` is node `i`, and the parameters follow the qubits.

`TensorX()` default-constructs to `Pattern.DefaultTensor`. A lookup of a missing node through `operator[]` yields that value (`Construct.WireOf`).

A rule is *closed* (`Search.RuleClosed`) when every open wire the destination side reads, as an operator input or as the target of a matched source operator's output in `mappedOutputs`, is also read by the source side. Qubits neither side touches map an open wire to itself and do not matter.

## Model

| member | source | states |
|---|---|---|
| Pattern.NewTensor | tasograph/substitution.cc:92-97 | The wire handed out is open and carries the counter's old value; the counter moves up by one. |
| Pattern.TensorXLessIsStrictTotalOrder | tasograph/substitution.h:22-28 | The `TensorXCompare` order is irreflexive, asymmetric and transitive, and two wires are equivalent under it exactly when they are equal. So `mappedOutputs` holds at most one entry per wire. |
| Pattern.MapOutput | tasograph/substitution.cc:99-102 | The source wire now maps to the given destination wire, overwriting any earlier entry; every other entry is kept and no other key appears. |
| Construct.AllocWires | tasograph/substitution.cc:26-47 | `n` calls of `new_tensor` give the open wires `tensorId`, `tensorId+1`, … in order and advance the counter by `n`. |
| Construct.InputWires | tasograph/substitution.cc:20-47 | Exactly the qubit and parameter nodes get wires. Node `n` gets open wire `10 + n`, and the counter ends at `10 + numQubits + numParams`. |
| Construct.InputWiresDistinct | tasograph/substitution.cc:18-47 | Distinct input nodes get distinct open wires. |
| Construct.MakeOp | tasograph/substitution.cc:50-66 | A built pattern operator has the gate kind of its hyperedge, input `j` is the current wire of input node `j`, and output `j` is `TensorX(op, j)`. |
| Construct.BindOutputs | tasograph/substitution.cc:62-64 | Each output node of an operator is rebound to that operator's output slot; for a node listed twice the last slot wins; every other node keeps its wire. |
| Construct.BuildOpsFollowsWireAt | tasograph/substitution.cc:48-67 | The operator loop wires each input to the reference wire `WireAt`: the latest output that produced the node before that operator, else its open input wire. The final table agrees with `WireAt` as well. |
| Construct.MapOutputsLastWins | tasograph/substitution.cc:84-89 | In the `map_output` loop, when several qubits share a final source wire, the last qubit's destination wire is the one kept. |
| Construct.FromTemplates | tasograph/substitution.cc:18-90 | Both operator lists mirror their templates and every input is the `WireAt` reference wire. `mappedOutputs` has one key per qubit's final source wire, each mapped to some qubit's final destination wire; a destination final node that a destination operator only reads maps to the default wire `TensorX()`, as `operator[]` inserts it. The counter ends after the interface wires. |
| Construct.InterfaceShared | tasograph/substitution.cc:33-46 | A source input and a destination input that read the same qubit or parameter node before it is overwritten carry the same open wire. |
| Construct.FromTemplatesWellFormed | tasograph/substitution.cc:48-83 | On both sides every bound input refers to an earlier operator, every open input is an interface wire (on the destination side also the default wire `TensorX()`, which `dst_to_tx[...]` yields for a node no input or operator bound), and every destination wire named by `mappedOutputs` lies in the destination list. |
| Construct.FromTemplatesOutputs | tasograph/substitution.cc:84-89 | Qubit `i`'s final source wire maps to qubit `i`'s final destination wire, unless a later qubit ends on the same source wire. |
| MultiMap.Find | tasograph/substitution.cc:117-118 | `find` reports a key absent exactly when it has no entries, and otherwise returns the first entry under it, the lower-bound entry of the usual red-black-tree multimap; `unmatch`'s `erase(find(k))` depends on this choice. |
| MultiMap.Insert | tasograph/substitution.cc:176-177 | `insert` adds the new observation after the existing ones under its key and changes no other key. |
| MultiMap.EraseFirst | tasograph/substitution.cc:192-194 | `erase(find(k))` removes the first observation under `k` and changes no other key. |
| Matching.CanMatch | tasograph/substitution.cc:104-164 | An accepted operator has the pattern operator's gate kind and `num_qubits + num_parameters` inputs; the full characterisation is `Matching.CanMatchIff`. |
| Matching.CanMatchFromIff | tasograph/substitution.cc:111-163 | The slot loop of `can_match` from slot `i` accepts exactly when each remaining slot is accepted on its own. This holds whenever the scratch map holds, for each wire not yet in `mappedInputs`, the first producer seen at an earlier slot, because `std::map::insert` keeps only the first in-edge offered. |
| Matching.CanMatchIff | tasograph/substitution.cc:104-164 | `can_match` holds exactly when the gate kinds agree, the input count is `num_qubits + num_parameters`, and every slot is accepted. A bound input needs the edge from its producer's concrete operator. An open input already recorded, globally or at an earlier slot, needs the edge from the recorded producer. A first-seen open input is free. |
| Matching.RecordInputs | tasograph/substitution.cc:167-181 | `match`'s loop appends, under each open wire, the producers of that wire's slots in slot order. |
| Matching.EraseInputs | tasograph/substitution.cc:188-196 | `unmatch`'s loop drops, under each open wire, as many first entries as the operator has slots carrying that wire. |
| Matching.Match | tasograph/substitution.cc:166-185 | `match` binds the pattern operator and the concrete operator to each other and appends the slot observations under each open wire. |
| Matching.Unmatch | tasograph/substitution.cc:187-201 | `unmatch` clears both bindings and drops one first entry per open slot. |
| Matching.MatchFacts | tasograph/substitution.cc:166-185 | After an accepted `match` on a graph with one in-edge per slot, every key still holds one repeated observation. `find` still returns what it returned before for each wire that was already recorded. Every open slot is fed by the observation `find` now returns. |
| Matching.MatchUnmatchRestores | tasograph/substitution.cc:166-201 | With one in-edge per slot and a consistent multimap, `unmatch` after an accepted `match` is defined. It restores `mappedOps` and `mappedInputs` exactly and clears the operator's `mapOp`. |
| NewGraph.CreateNewOperator | tasograph/substitution.cc:275-282 | One unique id is consumed either way. The operator is created exactly when the library knows the gate kind, with the consumed id and the library's gate. |
| NewGraph.CreateDstOps | tasograph/substitution.cc:209-219 | Every destination operator is instantiated exactly when every kind is in the library, operator `j` getting id `nextGuid + j`. Otherwise the loop stops at the first unknown kind, having consumed one id more than the operators before it. |
| NewGraph.DstOpsFresh | tasograph/substitution.cc:275-282 | Instantiated destination operators are pairwise distinct and not in the searched graph when its ids are below the counter. |
| NewGraph.BoundaryCovered | tasograph/substitution.cc:220-236 | The boundary loop: every out-edge of a matched operator into an unmatched one leaves through a wire `mappedOutputs` maps; `NewGraph.BoundaryCoveredFindsOutputs` restates it over the leaving in-edges. |
| NewGraph.BoundaryCoveredFindsOutputs | tasograph/substitution.cc:220-236 | The boundary check passes exactly when every edge from a matched to an unmatched operator has its source wire in `mappedOutputs`. |
| NewGraph.Redirect | tasograph/substitution.cc:296-305 | A leaving edge keeps its consumer slot and is re-sourced from where the destination wire its source wire maps to is produced: a bound destination wire at its instantiated operator's slot, an open one at the producer recorded for it in `mappedInputs`. It fails exactly when one of these lookups does. This is the corrected redirection of the Findings row. |
| NewGraph.RebuildUnmatched | tasograph/substitution.cc:290-310 | Step 2 fails exactly when some leaving edge cannot be redirected. Otherwise it yields exactly the edges between unmatched operators and the redirected leaving edges (corrected redirection, see Findings). |
| NewGraph.WireDstOps | tasograph/substitution.cc:312-329 | Step 3 fails exactly when some destination input cannot be resolved. Otherwise it yields exactly one edge per destination input, from its resolved producer. |
| NewGraph.AddEdge | tasograph/substitution.cc:303-327 | `add_edge` files the edge under its consumer, creating the consumer's entry if needed: the graph then holds exactly the old edges and the new one, and no other consumer appears. |
| NewGraph.AddEdges | tasograph/substitution.cc:303-327 | Adding edges files each one under its consumer, and the graph then holds exactly the old edges and the added ones. |
| NewGraph.CreateNewGraph | tasograph/substitution.cc:284-331 | The new graph exists exactly when no leaving edge fails to redirect and no destination input is unresolved. It then holds exactly the copied, redirected and newly wired edges, each filed under its consumer (corrected redirection, see Findings). |
| NewGraph.NoEdgeIntoMatched | tasograph/substitution.cc:290-310 | No edge of the new graph ends at a matched operator. |
| Search.InvStep | tasograph/substitution.cc:263-268 | Binding an accepted, unbound operator at depth `d` takes the matching invariant from depth `d` to `d + 1`. |
| Search.InvIsMatch | tasograph/substitution.cc:258-271 | A state satisfying the invariant at full depth is an occurrence of the source pattern: injective, kind- and edge-respecting, and one producer per open wire. |
| Search.UnmatchAfterRun | tasograph/substitution.cc:267-269 | `unmatch` after the recursive call returns the loop to the state it had before `match`. |
| Search.ClosedRuleBuilds | tasograph/substitution.cc:301-319 | For a rule whose destination reads only open wires the source also reads, `create_new_graph` with the corrected redirection of the Findings row always succeeds on a complete match that passes the boundary check. |
| Search.Terminal | tasograph/substitution.cc:209-257 | The terminal filters run in the source's order. A candidate is pushed exactly when every destination operator instantiates, the boundary is covered, the built graph is loop-free, its cost is below the threshold, its size is below the limit and its hash is new. At most one candidate is pushed, with its hash recorded; it is the graph built from the freshly instantiated destination operators (corrected redirection, see Findings). |
| Search.TerminalDropsMatched | tasograph/substitution.cc:209-257 | When every id of the searched graph is below the id counter, the graph pushed for a complete match has no edge into a matched operator: the instantiated destination operators are new ids, so no redirected or newly wired edge ends in the matched region. |
| Search.Run | tasograph/substitution.cc:203-273 | `run` returns with the matching state it was given. The frontier only grows, every pushed entry is an accepted occurrence extending the current bindings, and for a closed rule it never aborts (with the corrected redirection of the Findings row). |
| Search.RunLoop | tasograph/substitution.cc:258-271 | The candidate loop over the remaining concrete operators keeps the same promise. Only unbound operators are bound, so every pushed occurrence binds distinct concrete operators. |
| Findings.RedirectAsWritten | tasograph/substitution.cc:296-304 | As written, redirection fails both when the source wire is unmapped and when it maps to an open destination wire, whose operator is NULL. Otherwise it agrees with the corrected redirection. |
| Findings.PassThroughRedirect | tasograph/substitution.cc:284-305 | On the rule `X; X => identity` and the chain `A -> X1 -> X2 -> Y`, the search binds `X1, X2` and the boundary check passes. Redirection as written then fails on the edge `X2 -> Y`, while the corrected redirection gives `A -> Y`. |

## Left out

- The graph class (`tasograph.h`) is not part of this model. `has_loop`, `total_cost` and `hash` are function parameters of the search, and `check_correctness`, which only asserts, is omitted. The graph size compared against `maxNumOps` is the number of consumers in the built edge map.
- Cost is a `float` in the source and an `int` here, so rounding is not modelled.
- `Context::get_gate` and `next_global_unique_id` are a gate library map and an id counter. The `op == INVALID_OP` failure of `create_new_operator` is abstracted as a gate kind missing from the library; how `Op`'s equality treats the fresh id is in `tasograph.h`, which is not part of this model.
- The `DAG`, `DAGNode` and `DAGHyperEdge` classes are not part of this model. Templates are abstract, and the constructor's assertions about them are the `ValidPair` precondition. On the destination side a final node passes the assertion at line 86 when it is resolved or merely read by some destination operator, since `dst_to_tx[...]` at line 72 inserts a default entry for every node it reads.
- The priority queue and `GraphCompare` are not modelled; the frontier is a sequence in push order.
- Memory management (`new`, `delete`, graphs that are never freed) is not modelled.
- Pointer-address order in `TensorXCompare` is replaced by operator-index order.
- `add_edge` also files an edge among its producer's out-edges. Only the in-edge side is modelled, since out-edges are derived from in-edges here.
- The boundary check's `graph->outEdges[...]` can insert an empty entry into the searched graph; the model computes out-edges without changing the graph.
- NewGraph.Redirect: models the corrected redirection of the Findings row, not line 303 as written; `Findings.RedirectAsWritten` models the written code.
- NewGraph.RebuildUnmatched: built on the corrected `NewGraph.Redirect`, so it succeeds where line 303 as written dereferences NULL.
- NewGraph.CreateNewGraph: built on the corrected `NewGraph.Redirect`; as written, `create_new_graph` crashes on an open destination wire instead of returning a graph.
- Search.ClosedRuleBuilds: holds of the corrected `create_new_graph` only; the rule and graph of the Findings row pass its premises and crash the written code.
- Search.Terminal: calls the corrected `create_new_graph`, so it pushes a candidate where the written code crashes.
- Search.Run: "never aborts for a closed rule" holds with the corrected redirection only; on the Findings row's input the written code dereferences NULL.
- Search.Run: completeness (every occurrence is found) is not stated, only soundness and state restoration.
- Search.Run: the precondition asks for one in-edge per input slot of the searched graph. With no in-edge at an open slot whose wire is not yet recorded, `can_match` accepts, `match` records nothing and `unmatch` reaches `erase(end())`. With two in-edges at an open slot, `match` records both and `unmatch` erases only one, so a stale entry remains.
- Matching.MatchUnmatchRestores: restoration is stated under one in-edge per slot and a multimap whose keys each hold one repeated observation, which is the state `run` maintains. `unmatch` erases the first entry under a key rather than the one `match` added, so in general the state comes back only as a multiset.
- Pattern.TensorXLessIsStrictTotalOrder: the comparator's properties follow from its definition without a separate proof.

## Findings

| source | as written | input that shows it | evidently intended | confidence | as-written member | corrected member |
|---|---|---|---|---|---|---|
| tasograph/substitution.cc:302-304 | A leaving edge is redirected to `dstTen.op->mapOp`, where `dstTen` is the destination wire its source wire maps to. When the destination pattern leaves a qubit untouched, that wire is open and `dstTen.op` is NULL, so the dereference fails. | Rule `X; X => identity` (two `X` gates on one qubit, empty destination) on the chain `A -> X1 -> X2 -> Y`: the boundary check passes, and the edge `X2 -> Y` maps to open wire 10. | An open destination wire resolves through `mappedInputs` to the producer recorded for it (here `A`, slot 0), the way step 3 already wires open inputs. | medium, not executed | Findings.RedirectAsWritten | NewGraph.Redirect |

=== FILE: base.dfy ===
/** Concrete circuit graphs as the rewrite engine sees them: operators, edges,
    in-edge lists, and the edge sets of a newly built graph. The graph class
    itself (tasograph.h) is not part of this model; only the queries the engine
    makes of it are. */
module Base {

  datatype Option<T> = None | Some(value: T)

  /** A gate kind tag. */
  type GateType = int

  /** What a concrete operator's gate exposes to the engine: its kind and its
      qubit and parameter wire counts. */
  datatype Gate = Gate(tp: GateType, numQubits: nat, numParams: nat)

  /** A concrete operator: a global unique id and the gate it instantiates. */
  datatype Op = Op(guid: nat, gate: Gate)

  /** Total number of input wires of a concrete operator. */
  function NumInputs(op: Op): nat {
    op.gate.numQubits + op.gate.numParams
  }

  /** A dataflow edge: output slot `srcIdx` of `srcOp` feeds input slot `dstIdx` of `dstOp`. */
  datatype Edge = Edge(srcOp: Op, srcIdx: int, dstOp: Op, dstIdx: int)

  /** A (producer, output slot) pair, the value type of the open-wire multimap. */
  datatype Obs = Obs(op: Op, idx: int)

  /** The graph being searched: for every operator, its in-edge set listed in
      the set's iteration order (so that "the first in-edge at a slot" is
      defined). The searched graph is only read, never changed. */
  datatype Graph = Graph(inEdges: map<Op, seq<Edge>>)

  /** A newly built graph: for every consumer, its set of in-edges. */
  type EdgeSets = map<Op, set<Edge>>

  /** Every listed in-edge really ends at the operator it is listed under, and
      no edge is listed twice (the list enumerates a set). */
  predicate WellFormed(g: Graph) {
    && (forall d, e :: d in g.inEdges && e in g.inEdges[d] ==> e.dstOp == d)
    && (forall d, a, b :: d in g.inEdges && 0 <= a < b < |g.inEdges[d]| ==>
          g.inEdges[d][a] != g.inEdges[d][b])
  }

  /** The edge-existence query. */
  predicate HasEdge(g: Graph, src: Op, dst: Op, srcIdx: int, dstIdx: int) {
    dst in g.inEdges && Edge(src, srcIdx, dst, dstIdx) in g.inEdges[dst]
  }

  /** The producers of the edges in `es` that end at input slot `i`, in list order. */
  function SlotObs(es: seq<Edge>, i: int): seq<Obs> {
    if es == [] then []
    else (if es[0].dstIdx == i then [Obs(es[0].srcOp, es[0].srcIdx)] else []) + SlotObs(es[1..], i)
  }

  /** The producer of the first edge in `es` that ends at input slot `i`. */
  function FirstSlotObs(es: seq<Edge>, i: int): Option<Obs> {
    if es == [] then None
    else if es[0].dstIdx == i then Some(Obs(es[0].srcOp, es[0].srcIdx))
    else FirstSlotObs(es[1..], i)
  }

  /** The first element of a list, if any. */
  function Head<T>(s: seq<T>): Option<T> {
    if s == [] then None else Some(s[0])
  }

  /** The head of a concatenation comes from its first non-empty part. */
  lemma HeadAppend<T>(a: seq<T>, b: seq<T>)
    ensures Head(a + b) == if a != [] then Head(a) else Head(b)
  {
    if a != [] {
      assert (a + b)[0] == a[0];
    } else {
      assert a + b == b;
    }
  }

  /** The first producer at slot `i` heads the list of all of them. */
  lemma {:induction false} FirstSlotObsHead(es: seq<Edge>, i: int)
    ensures FirstSlotObs(es, i) == Head(SlotObs(es, i))
  {
    if es != [] {
      var here := if es[0].dstIdx == i then [Obs(es[0].srcOp, es[0].srcIdx)] else [];
      FirstSlotObsHead(es[1..], i);
      HeadAppend(here, SlotObs(es[1..], i));
    }
  }

  /** Every edge ending at slot `i` has its producer listed. */
  lemma {:induction false} SlotObsLists(es: seq<Edge>, i: int, e: Edge)
    requires e in es && e.dstIdx == i
    ensures Obs(e.srcOp, e.srcIdx) in SlotObs(es, i)
  {
    if es[0] != e {
      SlotObsLists(es[1..], i, e);
    }
  }

  /** A producer listed at slot `i` of a well-formed graph's in-edges of
      `op` feeds that slot. */
  lemma SlotObsHasEdge(g: Graph, op: Op, i: int, o: Obs)
    requires WellFormed(g) && op in g.inEdges && o in SlotObs(g.inEdges[op], i)
    ensures HasEdge(g, o.op, op, o.idx, i)
  {
    SlotObsFromEdges(g.inEdges[op], i, o);
    var e :| e in g.inEdges[op] && e.dstIdx == i && o == Obs(e.srcOp, e.srcIdx);
    assert e == Edge(o.op, o.idx, op, i);
  }

  /** Every producer `SlotObs` lists comes from an edge ending at slot `i`. */
  lemma {:induction false} SlotObsFromEdges(es: seq<Edge>, i: int, o: Obs)
    requires o in SlotObs(es, i)
    ensures exists e :: e in es && e.dstIdx == i && o == Obs(e.srcOp, e.srcIdx)
  {
    if es[0].dstIdx == i && o == Obs(es[0].srcOp, es[0].srcIdx) {
      assert es[0] in es;
    } else {
      SlotObsFromEdges(es[1..], i, o);
      var e :| e in es[1..] && e.dstIdx == i && o == Obs(e.srcOp, e.srcIdx);
      assert e in es;
    }
  }

  /** The circuit-graph invariant the engine relies on: every input slot of
      every operator is fed by exactly one edge. */
  predicate OneEdgePerSlot(g: Graph) {
    forall d, i :: d in g.inEdges && 0 <= i < NumInputs(d) ==> |SlotObs(g.inEdges[d], i)| == 1
  }

  /** When a slot has a single in-edge, any edge found there by `HasEdge` is it. */
  lemma SingleSlotProducer(g: Graph, op: Op, i: int, a: Op, b: int)
    requires WellFormed(g) && op in g.inEdges
    requires |SlotObs(g.inEdges[op], i)| == 1
    requires HasEdge(g, a, op, b, i)
    ensures SlotObs(g.inEdges[op], i) == [Obs(a, b)]
  {
    SlotObsLists(g.inEdges[op], i, Edge(a, b, op, i));
  }

  /** The out-edges of `o`, read off the in-edge lists. */
  function OutEdges(g: Graph, o: Op): (r: set<Edge>)
    ensures forall e :: e in r ==> e.srcOp == o
    ensures forall d, e :: d in g.inEdges && e in g.inEdges[d] && e.srcOp == o ==> e in r
  {
    set d, e | d in g.inEdges && e in g.inEdges[d] && e.srcOp == o :: e
  }

  /** Adding a fresh key and removing it again gives back the map. */
  lemma UpdateRemove<K, V>(m: map<K, V>, k: K, v: V)
    requires k !in m
    ensures m[k := v] - {k} == m
  {
  }
}

=== FILE: construct.dfy ===
/** Rule construction from a pair of equivalent templates (the `GraphXfer`
    constructor taking two DAGs). A template is abstracted to its qubit and
    parameter counts, its hyperedges in order and its final qubit nodes. Node
    ids `0 .. numQubits-1` are the qubit inputs (qubit `i` is node `i`) and the
    next `numParams` ids are the parameter inputs, so the constructor's checks
    on node roles and indices hold by construction. */
module Construct {
  import opened Base
  import opened Pattern

  type NodeId = nat

  /** One gate application of a template: its kind, input nodes and output nodes. */
  datatype HyperEdge = HyperEdge(gate: GateType, inputs: seq<NodeId>, outputs: seq<NodeId>)

  datatype Template = Template(numQubits: nat, numParams: nat, edges: seq<HyperEdge>, outputs: seq<NodeId>)

  /** Node-to-wire table (`src_to_tx` / `dst_to_tx`). */
  type WireTable = map<NodeId, TensorX>

  /** `n` consecutive calls of `new_tensor` starting from counter `tensorId`. */
  function AllocWires(n: nat, tensorId: int): (r: (seq<TensorX>, int))
    ensures |r.0| == n && r.1 == tensorId + n
    ensures forall i :: 0 <= i < n ==> r.0[i] == TensorX(None, tensorId + i)
  {
    if n == 0 then ([], tensorId)
    else
      var (t, next) := NewTensor(tensorId);
      var (rest, last) := AllocWires(n - 1, next);
      ([t] + rest, last)
  }

  /** The wires of the template inputs: qubits first, then parameters, from a
      fresh counter. The same table seeds both sides of the rule. */
  function InputWires(numQubits: nat, numParams: nat): (r: (WireTable, int))
    ensures r.1 == FirstTensorId + numQubits + numParams
    ensures forall n: NodeId :: n in r.0 <==> n < numQubits + numParams
    ensures forall n :: n in r.0 ==> r.0[n] == TensorX(None, FirstTensorId + n)
  {
    var (qs, afterQubits) := AllocWires(numQubits, FirstTensorId);
    var (ps, afterParams) := AllocWires(numParams, afterQubits);
    var table := map n: NodeId | n < numQubits + numParams :: if n < numQubits then qs[n] else ps[n - numQubits];
    assert forall n: NodeId :: n < numQubits + numParams ==> n in table;
    (table, afterParams)
  }

  /** The open wires handed to the inputs are pairwise distinct. */
  lemma InputWiresDistinct(numQubits: nat, numParams: nat, a: NodeId, b: NodeId)
    requires a < numQubits + numParams && b < numQubits + numParams && a != b
    ensures InputWires(numQubits, numParams).0[a] != InputWires(numQubits, numParams).0[b]
  {
  }

  /** Table lookup through `operator[]`: a missing node reads as a default wire. */
  function WireOf(wires: WireTable, n: NodeId): TensorX {
    if n in wires then wires[n] else DefaultTensor()
  }

  /** Registers outputs `j .. ` of the operator with index `k`; a node listed
      twice keeps its last slot. */
  function BindOutputs(wires: WireTable, outs: seq<NodeId>, k: nat, j: nat): (r: WireTable)
    requires j <= |outs|
    decreases |outs| - j
    ensures forall n :: n in outs[j..] ==> n in r && r[n] == TensorX(Some(k), LastIndex(outs, n))
    ensures forall n :: n !in outs[j..] ==> WireOf(r, n) == WireOf(wires, n)
  {
    if j == |outs| then wires
    else
      LastIndexSkip(outs, j, outs[j]);
      BindOutputs(wires[outs[j] := TensorX(Some(k), j)], outs, k, j + 1)
  }

  /** Position of the last occurrence of `n` in `s`. */
  function LastIndex(s: seq<NodeId>, n: NodeId): (r: nat)
    requires n in s
    ensures r < |s| && s[r] == n
    ensures forall i :: r < i < |s| ==> s[i] != n
  {
    if s[|s| - 1] == n then |s| - 1 else LastIndex(s[..|s| - 1], n)
  }

  /** The last occurrence of `n` at or after `j` is its last occurrence overall. */
  lemma LastIndexSkip(s: seq<NodeId>, j: nat, n: NodeId)
    requires j < |s| && s[j] == n
    ensures (n in s[j + 1..] ==> LastIndex(s, n) > j) && (n !in s[j + 1..] ==> LastIndex(s, n) == j)
  {
    var r := LastIndex(s, n);
    if n in s[j + 1..] {
      var t :| 0 <= t < |s[j + 1..]| && s[j + 1..][t] == n;
      assert s[j + 1 + t] == n;
    } else {
      assert forall i :: j < i < |s| ==> s[i] == s[j + 1..][i - j - 1];
    }
  }

  /** One pattern operator built from hyperedge `e` with index `k`. */
  function MakeOp(e: HyperEdge, k: nat, wires: WireTable): (op: OpX)
    ensures op.tp == e.gate
    ensures |op.inputs| == |e.inputs| && |op.outputs| == |e.outputs|
    ensures forall j :: 0 <= j < |e.inputs| ==> op.inputs[j] == WireOf(wires, e.inputs[j])
    ensures forall j :: 0 <= j < |e.outputs| ==> op.outputs[j] == TensorX(Some(k), j)
  {
    OpX(e.gate,
        seq(|e.inputs|, j requires 0 <= j < |e.inputs| => WireOf(wires, e.inputs[j])),
        seq(|e.outputs|, j requires 0 <= j < |e.outputs| => TensorX(Some(k), j)))
  }

  /** The operator-building loop over `edges[|acc|..]`, threading the wire table. */
  function BuildOps(edges: seq<HyperEdge>, wires: WireTable, acc: seq<OpX>): (r: (seq<OpX>, WireTable))
    requires |acc| <= |edges|
    decreases |edges| - |acc|
    ensures |r.0| == |edges| && r.0[..|acc|] == acc
    ensures forall k :: |acc| <= k < |edges| ==>
      r.0[k].tp == edges[k].gate && |r.0[k].inputs| == |edges[k].inputs| &&
      |r.0[k].outputs| == |edges[k].outputs| &&
      forall j :: 0 <= j < |edges[k].outputs| ==> r.0[k].outputs[j] == TensorX(Some(k), j)
  {
    if |acc| == |edges| then (acc, wires)
    else
      var k := |acc|;
      var op := MakeOp(edges[k], k, wires);
      BuildOps(edges, BindOutputs(wires, edges[k].outputs, k, 0), acc + [op])
  }

  /** Reference definition of the table: the wire of node `n` once the first
      `k` hyperedges are processed is the last output slot of the latest of
      them that produces `n`, or else the node's initial wire. */
  function WireAt(init: WireTable, edges: seq<HyperEdge>, k: nat, n: NodeId): TensorX
    requires k <= |edges|
  {
    if k == 0 then WireOf(init, n)
    else if n in edges[k - 1].outputs then TensorX(Some(k - 1), LastIndex(edges[k - 1].outputs, n))
    else WireAt(init, edges, k - 1, n)
  }

  /** Registering the outputs of hyperedge `k` advances the reference table by one step. */
  lemma BindOutputsStep(init: WireTable, edges: seq<HyperEdge>, k: nat, wires: WireTable)
    requires k < |edges|
    requires forall n :: WireOf(wires, n) == WireAt(init, edges, k, n)
    ensures forall n :: WireOf(BindOutputs(wires, edges[k].outputs, k, 0), n) == WireAt(init, edges, k + 1, n)
  {
    assert edges[k].outputs[0..] == edges[k].outputs;
  }

  /** `BuildOps` wires every input to the reference wire of its node. */
  lemma {:induction false} BuildOpsFollowsWireAt(init: WireTable, edges: seq<HyperEdge>, wires: WireTable, acc: seq<OpX>)
    requires |acc| <= |edges|
    requires forall n :: WireOf(wires, n) == WireAt(init, edges, |acc|, n)
    ensures forall k, j :: |acc| <= k < |edges| && 0 <= j < |edges[k].inputs| ==>
      BuildOps(edges, wires, acc).0[k].inputs[j] == WireAt(init, edges, k, edges[k].inputs[j])
    ensures forall n :: WireOf(BuildOps(edges, wires, acc).1, n) == WireAt(init, edges, |edges|, n)
    decreases |edges| - |acc|
  {
    if |acc| < |edges| {
      var k := |acc|;
      var op := MakeOp(edges[k], k, wires);
      var wires' := BindOutputs(wires, edges[k].outputs, k, 0);
      BindOutputsStep(init, edges, k, wires);
      BuildOpsFollowsWireAt(init, edges, wires', acc + [op]);
      var r := BuildOps(edges, wires', acc + [op]);
      assert BuildOps(edges, wires, acc) == r;
      assert r.0[k] == (acc + [op])[k] == op by {
        assert r.0[..|acc + [op]|] == acc + [op];
      }
    }
  }

  /** A reference wire is either an initial wire or an output slot of an
      earlier operator. */
  lemma WireAtShape(init: WireTable, edges: seq<HyperEdge>, k: nat, n: NodeId)
    requires k <= |edges|
    ensures var t := WireAt(init, edges, k, n);
      t.op.Some? ==> (t.op.value < k && 0 <= t.idx < |edges[t.op.value].outputs|) || (n in init && t == init[n])
    ensures var t := WireAt(init, edges, k, n);
      t.op.None? ==> t == WireOf(init, n)
  {
    if k > 0 && n !in edges[k - 1].outputs {
      WireAtShape(init, edges, k - 1, n);
    }
  }

  /** The initial wire of node `n` survives as long as no earlier hyperedge
      produces `n`. */
  lemma WireAtInitial(init: WireTable, edges: seq<HyperEdge>, k: nat, n: NodeId)
    requires k <= |edges|
    requires forall m :: 0 <= m < k ==> n !in edges[m].outputs
    ensures WireAt(init, edges, k, n) == WireOf(init, n)
  {
    if k > 0 {
      WireAtInitial(init, edges, k - 1, n);
    }
  }

  /** Node `n` has an entry in the table after the first `k` hyperedges. */
  predicate Resolved(t: Template, k: nat, n: NodeId)
    requires k <= |t.edges|
  {
    n < t.numQubits + t.numParams || exists m :: 0 <= m < k && n in t.edges[m].outputs
  }

  /** Some hyperedge of `t` reads node `n`. On the destination side such a
      read goes through `operator[]`, which gives `n` a (default) entry. */
  predicate ReadByEdge(t: Template, n: NodeId) {
    exists k, j :: 0 <= k < |t.edges| && 0 <= j < |t.edges[k].inputs| && t.edges[k].inputs[j] == n
  }

  /** What the constructor asserts of its templates: equal qubit and parameter
      counts, every source input node resolved when read, and a final node
      with a table entry for every qubit on both sides (resolved on the source
      side; on the destination side resolved or merely read). */
  predicate ValidPair(src: Template, dst: Template) {
    && src.numQubits == dst.numQubits
    && src.numParams == dst.numParams
    && (forall k, j :: 0 <= k < |src.edges| && 0 <= j < |src.edges[k].inputs| ==>
          Resolved(src, k, src.edges[k].inputs[j]))
    && |src.outputs| >= src.numQubits
    && |dst.outputs| >= dst.numQubits
    && (forall i :: 0 <= i < src.numQubits ==>
          && Resolved(src, |src.edges|, src.outputs[i])
          && (Resolved(dst, |dst.edges|, dst.outputs[i]) || ReadByEdge(dst, dst.outputs[i])))
  }

  /** The `map_output` loop over qubits `i ..`. */
  function MapOutputs(srcFinal: seq<TensorX>, dstFinal: seq<TensorX>, i: nat, mo: map<TensorX, TensorX>): (r: map<TensorX, TensorX>)
    requires |srcFinal| == |dstFinal| && i <= |srcFinal|
    decreases |srcFinal| - i
    ensures forall t :: t in r <==> t in mo || t in srcFinal[i..]
    ensures forall t :: t in r ==> r[t] in mo.Values || r[t] in dstFinal[i..]
  {
    if i == |srcFinal| then mo
    else
      var r := MapOutputs(srcFinal, dstFinal, i + 1, MapOutput(mo, srcFinal[i], dstFinal[i]));
      assert forall t :: t in srcFinal[i..] <==> t == srcFinal[i] || t in srcFinal[i + 1..];
      assert forall t :: t in dstFinal[i..] <==> t == dstFinal[i] || t in dstFinal[i + 1..];
      r
  }

  /** The last qubit mapping a source wire wins: if no later qubit has the
      same final source wire, the entry holds that qubit's destination wire. */
  lemma {:induction false} MapOutputsLastWins(srcFinal: seq<TensorX>, dstFinal: seq<TensorX>, i: nat, mo: map<TensorX, TensorX>, j: nat)
    requires |srcFinal| == |dstFinal| && i <= j < |srcFinal|
    requires srcFinal[j] !in srcFinal[j + 1..]
    ensures MapOutputs(srcFinal, dstFinal, i, mo)[srcFinal[j]] == dstFinal[j]
    decreases |srcFinal| - i
  {
    var mo' := MapOutput(mo, srcFinal[i], dstFinal[i]);
    if i < j {
      MapOutputsLastWins(srcFinal, dstFinal, i + 1, mo', j);
    } else {
      KeyUntouched(srcFinal, dstFinal, i + 1, mo', srcFinal[j]);
    }
  }

  /** Entries for wires no later qubit maps are left as they are. */
  lemma {:induction false} KeyUntouched(srcFinal: seq<TensorX>, dstFinal: seq<TensorX>, i: nat, mo: map<TensorX, TensorX>, t: TensorX)
    requires |srcFinal| == |dstFinal| && i <= |srcFinal|
    requires t in mo && t !in srcFinal[i..]
    ensures MapOutputs(srcFinal, dstFinal, i, mo)[t] == mo[t]
    decreases |srcFinal| - i
  {
    if i < |srcFinal| {
      assert srcFinal[i] != t && t !in srcFinal[i + 1..] by {
        assert srcFinal[i] == srcFinal[i..][0];
        assert srcFinal[i + 1..] == srcFinal[i..][1..];
      }
      KeyUntouched(srcFinal, dstFinal, i + 1, MapOutput(mo, srcFinal[i], dstFinal[i]), t);
    }
  }

  /** The initial table of a template: its inputs' open wires. */
  function InitialTable(t: Template): WireTable {
    InputWires(t.numQubits, t.numParams).0
  }

  /** The wire finally holding qubit `i` of template `t`. */
  function FinalWire(t: Template, i: nat): TensorX
    requires i < |t.outputs|
  {
    WireAt(InitialTable(t), t.edges, |t.edges|, t.outputs[i])
  }

  /** Operator `k` mirrors hyperedge `k`: same gate kind and input count, and
      output slot `j` is the wire `TensorX(k, j)`. */
  predicate OpsMirror(ops: seq<OpX>, edges: seq<HyperEdge>) {
    && |ops| == |edges|
    && forall k :: 0 <= k < |ops| ==>
         && ops[k].tp == edges[k].gate
         && |ops[k].inputs| == |edges[k].inputs|
         && |ops[k].outputs| == |edges[k].outputs|
         && forall j :: 0 <= j < |ops[k].outputs| ==> ops[k].outputs[j] == TensorX(Some(k), j)
  }

  /** One side of the rule: the operator list and the final table. */
  function BuildSide(t: Template): (r: (seq<OpX>, WireTable))
    ensures OpsMirror(r.0, t.edges)
    ensures forall k, j :: 0 <= k < |t.edges| && 0 <= j < |t.edges[k].inputs| ==>
      r.0[k].inputs[j] == WireAt(InitialTable(t), t.edges, k, t.edges[k].inputs[j])
    ensures forall n :: WireOf(r.1, n) == WireAt(InitialTable(t), t.edges, |t.edges|, n)
  {
    BuildOpsFollowsWireAt(InitialTable(t), t.edges, InitialTable(t), []);
    BuildOps(t.edges, InitialTable(t), [])
  }

  /** The final wires of qubits `0 .. q-1` read from a final table. */
  function FinalWires(t: Template, table: WireTable, q: nat): (r: seq<TensorX>)
    requires q <= |t.outputs|
    requires forall n :: WireOf(table, n) == WireAt(InitialTable(t), t.edges, |t.edges|, n)
    ensures |r| == q && forall i :: 0 <= i < q ==> r[i] == FinalWire(t, i)
  {
    seq(q, i requires 0 <= i < q => WireOf(table, t.outputs[i]))
  }

  /** The constructor from two equivalent templates. */
  function FromTemplates(src: Template, dst: Template): (x: GraphXfer)
    requires ValidPair(src, dst)
    ensures x.tensorId == FirstTensorId + src.numQubits + src.numParams
    ensures OpsMirror(x.srcOps, src.edges) && OpsMirror(x.dstOps, dst.edges)
    ensures forall k, j :: 0 <= k < |src.edges| && 0 <= j < |src.edges[k].inputs| ==>
      x.srcOps[k].inputs[j] == WireAt(InitialTable(src), src.edges, k, src.edges[k].inputs[j])
    ensures forall k, j :: 0 <= k < |dst.edges| && 0 <= j < |dst.edges[k].inputs| ==>
      x.dstOps[k].inputs[j] == WireAt(InitialTable(dst), dst.edges, k, dst.edges[k].inputs[j])
    ensures PairsFinals(x.mappedOutputs, src, dst)
  {
    var q := src.numQubits;
    var (srcOps, srcTable) := BuildSide(src);
    var (dstOps, dstTable) := BuildSide(dst);
    var srcFinal := FinalWires(src, srcTable, q);
    var dstFinal := FinalWires(dst, dstTable, q);
    var mo := MapOutputs(srcFinal, dstFinal, 0, map[]);
    FinalsMapped(src, dst, srcFinal, dstFinal);
    GraphXfer(InputWires(src.numQubits, src.numParams).1, srcOps, dstOps, mo)
  }

  /** The keys of `mo` are the source side's final wires, and every value is
      a destination side's final wire. */
  ghost predicate PairsFinals(mo: map<TensorX, TensorX>, src: Template, dst: Template)
    requires ValidPair(src, dst)
  {
    && (forall t :: t in mo <==> exists i :: 0 <= i < src.numQubits && t == FinalWire(src, i))
    && (forall t :: t in mo ==> exists i :: 0 <= i < src.numQubits && mo[t] == FinalWire(dst, i))
  }

  /** The constructor's `mappedOutputs` pairs the two sides' final wires. */
  lemma FinalsMapped(src: Template, dst: Template, srcFinal: seq<TensorX>, dstFinal: seq<TensorX>)
    requires ValidPair(src, dst)
    requires |srcFinal| == |dstFinal| == src.numQubits
    requires forall i :: 0 <= i < src.numQubits ==> srcFinal[i] == FinalWire(src, i) && dstFinal[i] == FinalWire(dst, i)
    ensures PairsFinals(MapOutputs(srcFinal, dstFinal, 0, map[]), src, dst)
  {
    var mo := MapOutputs(srcFinal, dstFinal, 0, map[]);
    assert srcFinal[0..] == srcFinal && dstFinal[0..] == dstFinal;
    forall t | t in mo
      ensures exists i :: 0 <= i < src.numQubits && t == FinalWire(src, i)
      ensures exists i :: 0 <= i < src.numQubits && mo[t] == FinalWire(dst, i)
    {
      var i :| 0 <= i < |srcFinal| && srcFinal[i] == t;
      var i' :| 0 <= i' < |dstFinal| && dstFinal[i'] == mo[t];
    }
    forall t | exists i :: 0 <= i < src.numQubits && t == FinalWire(src, i)
      ensures t in mo
    {
      var i :| 0 <= i < src.numQubits && t == FinalWire(src, i);
      assert srcFinal[i] == t;
    }
  }

  /** A node produced by one of the first `k` hyperedges has a bound wire. */
  lemma WireAtProduced(init: WireTable, edges: seq<HyperEdge>, k: nat, n: NodeId, m: nat)
    requires m < k <= |edges| && n in edges[m].outputs
    ensures WireAt(init, edges, k, n).op.Some?
  {
    if n !in edges[k - 1].outputs {
      WireAtProduced(init, edges, k - 1, n, m);
    }
  }

  /** The wire of an input node read before any hyperedge produces it. */
  lemma InputNodeWire(t: Template, k: nat, n: NodeId)
    requires k <= |t.edges| && n < t.numQubits + t.numParams
    requires forall m :: 0 <= m < k ==> n !in t.edges[m].outputs
    ensures WireAt(InitialTable(t), t.edges, k, n) == TensorX(None, FirstTensorId + n)
  {
    WireAtInitial(InitialTable(t), t.edges, k, n);
  }

  /** Both sides of a rule give a qubit or parameter input the same open
      wire: an input read on either side before anything overwrites it holds
      `TensorX(NULL, 10 + n)`. */
  lemma InterfaceShared(src: Template, dst: Template, k: nat, j: nat, k': nat, j': nat)
    requires ValidPair(src, dst)
    requires k < |src.edges| && j < |src.edges[k].inputs|
    requires k' < |dst.edges| && j' < |dst.edges[k'].inputs|
    requires src.edges[k].inputs[j] == dst.edges[k'].inputs[j'] < src.numQubits + src.numParams
    requires forall m :: 0 <= m < k ==> src.edges[k].inputs[j] !in src.edges[m].outputs
    requires forall m :: 0 <= m < k' ==> dst.edges[k'].inputs[j'] !in dst.edges[m].outputs
    ensures FromTemplates(src, dst).srcOps[k].inputs[j] == FromTemplates(src, dst).dstOps[k'].inputs[j']
    ensures FromTemplates(src, dst).srcOps[k].inputs[j] == TensorX(None, FirstTensorId + src.edges[k].inputs[j])
  {
    InputNodeWire(src, k, src.edges[k].inputs[j]);
    InputNodeWire(dst, k', dst.edges[k'].inputs[j']);
  }

  /** The built rule is fit for the search, and its open wires are the
      template inputs' wires: `10 .. 10+q+p-1` on the source side; on the
      destination side an input node missing from the table reads as the
      default wire, identity 0. */
  lemma FromTemplatesWellFormed(src: Template, dst: Template)
    requires ValidPair(src, dst)
    ensures RuleWellFormed(FromTemplates(src, dst))
    ensures var x := FromTemplates(src, dst);
      forall k, j :: 0 <= k < |x.srcOps| && 0 <= j < |x.srcOps[k].inputs| && x.srcOps[k].inputs[j].op.None? ==>
        FirstTensorId <= x.srcOps[k].inputs[j].idx < FirstTensorId + src.numQubits + src.numParams
    ensures var x := FromTemplates(src, dst);
      forall k, j :: 0 <= k < |x.dstOps| && 0 <= j < |x.dstOps[k].inputs| && x.dstOps[k].inputs[j].op.None? ==>
        (FirstTensorId <= x.dstOps[k].inputs[j].idx < FirstTensorId + src.numQubits + src.numParams) ||
        x.dstOps[k].inputs[j] == DefaultTensor()
  {
    SourceSideOk(src, dst);
    DestinationSideOk(src, dst);
    MappedOutputsInRange(src, dst);
  }

  /** The source side is topologically ordered and reads only template input
      wires from outside. */
  lemma SourceSideOk(src: Template, dst: Template)
    requires ValidPair(src, dst)
    ensures var x := FromTemplates(src, dst);
      forall k, j :: 0 <= k < |x.srcOps| && 0 <= j < |x.srcOps[k].inputs| ==>
        (x.srcOps[k].inputs[j].op.Some? ==> x.srcOps[k].inputs[j].op.value < k) &&
        (x.srcOps[k].inputs[j].op.None? ==>
           FirstTensorId <= x.srcOps[k].inputs[j].idx < FirstTensorId + src.numQubits + src.numParams)
  {
    var x := FromTemplates(src, dst);
    forall k, j | 0 <= k < |x.srcOps| && 0 <= j < |x.srcOps[k].inputs|
      ensures x.srcOps[k].inputs[j].op.Some? ==> x.srcOps[k].inputs[j].op.value < k
      ensures x.srcOps[k].inputs[j].op.None? ==>
        FirstTensorId <= x.srcOps[k].inputs[j].idx < FirstTensorId + src.numQubits + src.numParams
    {
      SourceWire(src, dst, k, j);
    }
  }

  /** The destination side is topologically ordered and reads only template
      input wires, or the default wire, from outside. */
  lemma DestinationSideOk(src: Template, dst: Template)
    requires ValidPair(src, dst)
    ensures var x := FromTemplates(src, dst);
      forall k, j :: 0 <= k < |x.dstOps| && 0 <= j < |x.dstOps[k].inputs| ==>
        (x.dstOps[k].inputs[j].op.Some? ==> x.dstOps[k].inputs[j].op.value < k) &&
        (x.dstOps[k].inputs[j].op.None? ==>
          (FirstTensorId <= x.dstOps[k].inputs[j].idx < FirstTensorId + src.numQubits + src.numParams) ||
          x.dstOps[k].inputs[j] == DefaultTensor())
  {
    var x := FromTemplates(src, dst);
    forall k, j | 0 <= k < |x.dstOps| && 0 <= j < |x.dstOps[k].inputs|
      ensures x.dstOps[k].inputs[j].op.Some? ==> x.dstOps[k].inputs[j].op.value < k
      ensures x.dstOps[k].inputs[j].op.None? ==>
        (FirstTensorId <= x.dstOps[k].inputs[j].idx < FirstTensorId + src.numQubits + src.numParams) ||
        x.dstOps[k].inputs[j] == DefaultTensor()
    {
      WireAtShape(InitialTable(dst), dst.edges, k, dst.edges[k].inputs[j]);
    }
  }

  /** Every destination operator named by `mappedOutputs` exists. */
  lemma MappedOutputsInRange(src: Template, dst: Template)
    requires ValidPair(src, dst)
    ensures var x := FromTemplates(src, dst);
      forall t :: t in x.mappedOutputs && x.mappedOutputs[t].op.Some? ==> x.mappedOutputs[t].op.value < |x.dstOps|
  {
    var x := FromTemplates(src, dst);
    forall t | t in x.mappedOutputs && x.mappedOutputs[t].op.Some?
      ensures x.mappedOutputs[t].op.value < |x.dstOps|
    {
      var i :| 0 <= i < src.numQubits && x.mappedOutputs[t] == FinalWire(dst, i);
      WireAtShape(InitialTable(dst), dst.edges, |dst.edges|, dst.outputs[i]);
    }
  }

  /** A source operator reads an earlier operator's output or one of the
      template inputs' wires. */
  lemma SourceWire(src: Template, dst: Template, k: nat, j: nat)
    requires ValidPair(src, dst)
    requires k < |src.edges| && j < |src.edges[k].inputs|
    ensures var w := WireAt(InitialTable(src), src.edges, k, src.edges[k].inputs[j]);
      (w.op.Some? ==> w.op.value < k) &&
      (w.op.None? ==> FirstTensorId <= w.idx < FirstTensorId + src.numQubits + src.numParams)
  {
    var n := src.edges[k].inputs[j];
    WireAtShape(InitialTable(src), src.edges, k, n);
    assert Resolved(src, k, n);
    if n >= src.numQubits + src.numParams {
      var m :| 0 <= m < k && n in src.edges[m].outputs;
      WireAtProduced(InitialTable(src), src.edges, k, n, m);
    }
  }

  /** One `mappedOutputs` entry per qubit: the final source wire of qubit
      `i` maps to the final destination wire of the same qubit, unless a
      later qubit ends on the same source wire and overwrites it. */
  lemma FromTemplatesOutputs(src: Template, dst: Template, i: nat)
    requires ValidPair(src, dst) && i < src.numQubits
    requires forall i' :: i < i' < src.numQubits ==> FinalWire(src, i') != FinalWire(src, i)
    ensures FromTemplates(src, dst).mappedOutputs[FinalWire(src, i)] == FinalWire(dst, i)
  {
    var q := src.numQubits;
    var (srcOps, srcTable) := BuildSide(src);
    var (dstOps, dstTable) := BuildSide(dst);
    var srcFinal := FinalWires(src, srcTable, q);
    var dstFinal := FinalWires(dst, dstTable, q);
    assert srcFinal[i] !in srcFinal[i + 1..];
    MapOutputsLastWins(srcFinal, dstFinal, 0, map[], i);
  }
}

=== FILE: findings.dfy ===
/** Redirection of leaving edges as `create_new_graph` writes it, and an
    input on which it dereferences a NULL operator. The rest of the model
    uses the corrected `NewGraph.Redirect`. */
module Findings {
  import opened Base
  import opened Pattern
  import opened MultiMap
  import opened Matching
  import opened NewGraph
  import opened Construct
  import opened Search

  /** The redirection step as written: the destination wire that
      `mappedOutputs` pairs with the leaving edge's source wire is always
      read as an output slot of an instantiated destination operator. `None`
      when the source wire is unmapped (the failing assertion) or when the
      destination wire is open, whose operator is NULL. */
  function RedirectAsWritten(x: GraphXfer, st: MatchState, dstMap: seq<Op>, e: Edge): (r: Option<Edge>)
    requires Instantiates(x, dstMap) && Canonical(st.mappedInputs) && e.srcOp in st.mappedOps
    ensures r.Some? ==> r == Redirect(x, st, dstMap, e)
    ensures var srcTen := TensorX(Some(st.mappedOps[e.srcOp]), e.srcIdx);
      r.None? <==> srcTen !in x.mappedOutputs || x.mappedOutputs[srcTen].op.None?
  {
    var srcTen := TensorX(Some(st.mappedOps[e.srcOp]), e.srcIdx);
    if srcTen !in x.mappedOutputs then None
    else
      var dstTen := x.mappedOutputs[srcTen];
      if dstTen.op.None? then None
      else Some(Edge(dstMap[dstTen.op.value], dstTen.idx, e.dstOp, e.dstIdx))
  }

  /** Source template: two `X` gates in a row on one qubit. */
  function TwoX(): Template {
    Template(1, 0, [HyperEdge(1, [0], [1]), HyperEdge(1, [1], [2])], [2])
  }

  /** Destination template: the qubit passes through untouched. */
  function Wire(): Template {
    Template(1, 0, [], [0])
  }

  /** The rule `X; X => identity`: the source's last output maps to the
      destination's open input wire 10. */
  function TwoXRule(): GraphXfer {
    GraphXfer(11,
      [OpX(1, [TensorX(None, 10)], [TensorX(Some(0), 0)]), OpX(1, [TensorX(Some(0), 0)], [TensorX(Some(1), 0)])],
      [],
      map[TensorX(Some(1), 0) := TensorX(None, 10)])
  }

  /** The constructor builds `TwoXRule` from the two templates. */
  lemma TwoXRuleBuilt()
    ensures ValidPair(TwoX(), Wire())
    ensures FromTemplates(TwoX(), Wire()) == TwoXRule()
  {
    TwoXValid();
    TwoXSourceOps();
    TwoXMappedOutputs();
    SameRule(FromTemplates(TwoX(), Wire()), TwoXRule());
  }

  lemma TwoXValid()
    ensures ValidPair(TwoX(), Wire())
  {
    var src := TwoX();
    var dst := Wire();
    assert Resolved(src, 0, 0);
    assert Resolved(src, 1, 1) by { assert 1 in src.edges[0].outputs; }
    assert Resolved(src, 2, 2) by { assert 2 in src.edges[1].outputs; }
    assert Resolved(dst, 0, 0);
  }

  lemma TwoXSourceOps()
    requires ValidPair(TwoX(), Wire())
    ensures FromTemplates(TwoX(), Wire()).srcOps == TwoXRule().srcOps
  {
    TwoXFirstOp();
    TwoXSecondOp();
    SameTwo(FromTemplates(TwoX(), Wire()).srcOps, TwoXRule().srcOps);
  }

  /** The first `X` reads the qubit's input wire. */
  lemma TwoXFirstOp()
    requires ValidPair(TwoX(), Wire())
    ensures FromTemplates(TwoX(), Wire()).srcOps[0] == TwoXRule().srcOps[0]
  {
    var src := TwoX();
    var init := InitialTable(src);
    assert WireAt(init, src.edges, 0, 0) == TensorX(None, 10) by {
      assert init[0] == TensorX(None, 10);
    }
    SingleWireOp(FromTemplates(src, Wire()).srcOps, src.edges, 0, TensorX(None, 10));
  }

  /** The second `X` reads the first one's output. */
  lemma TwoXSecondOp()
    requires ValidPair(TwoX(), Wire())
    ensures FromTemplates(TwoX(), Wire()).srcOps[1] == TwoXRule().srcOps[1]
  {
    var src := TwoX();
    assert WireAt(InitialTable(src), src.edges, 1, 1) == TensorX(Some(0), 0) by {
      assert LastIndex(src.edges[0].outputs, 1) == 0;
    }
    SingleWireOp(FromTemplates(src, Wire()).srcOps, src.edges, 1, TensorX(Some(0), 0));
  }

  lemma TwoXMappedOutputs()
    requires ValidPair(TwoX(), Wire())
    ensures FromTemplates(TwoX(), Wire()).mappedOutputs == TwoXRule().mappedOutputs
  {
    TwoXFinalWires();
    OneQubitKeys(TwoX(), Wire());
    FromTemplatesOutputs(TwoX(), Wire(), 0);
    SameSingleton(FromTemplates(TwoX(), Wire()).mappedOutputs, TensorX(Some(1), 0), TensorX(None, 10));
  }

  /** With one qubit, the only source wire with an entry is its final wire. */
  lemma OneQubitKeys(src: Template, dst: Template)
    requires ValidPair(src, dst) && src.numQubits == 1
    ensures FromTemplates(src, dst).mappedOutputs.Keys == {FinalWire(src, 0)}
  {
    var srcFinal := FinalWires(src, BuildSide(src).1, 1);
    var dstFinal := FinalWires(dst, BuildSide(dst).1, 1);
    var mo := FromTemplates(src, dst).mappedOutputs;
    assert mo == MapOutputs(srcFinal, dstFinal, 0, map[]);
    assert srcFinal[0..] == [FinalWire(src, 0)];
    OnlyKey(mo, FinalWire(src, 0));
  }

  lemma OnlyKey<K, V>(m: map<K, V>, k: K)
    requires forall t :: t in m <==> t in [k]
    ensures m.Keys == {k}
  {
  }

  /** Qubit 0 ends on the second `X`'s output in the source template and on
      its input wire in the destination template. */
  lemma TwoXFinalWires()
    ensures FinalWire(TwoX(), 0) == TensorX(Some(1), 0)
    ensures FinalWire(Wire(), 0) == TensorX(None, 10)
  {
    var src := TwoX();
    assert LastIndex(src.edges[1].outputs, 2) == 0;
    assert InitialTable(Wire())[0] == TensorX(None, 10);
  }

  /** An operator with one input and one output mirrors its hyperedge. */
  lemma SingleWireOp(ops: seq<OpX>, edges: seq<HyperEdge>, k: nat, a: TensorX)
    requires OpsMirror(ops, edges) && k < |edges|
    requires |edges[k].inputs| == 1 && |edges[k].outputs| == 1 && ops[k].inputs[0] == a
    ensures ops[k] == OpX(edges[k].gate, [a], [TensorX(Some(k), 0)])
  {
    assert ops[k].outputs[0] == TensorX(Some(k), 0);
  }

  lemma SameTwo<T>(a: seq<T>, b: seq<T>)
    requires |a| == |b| == 2 && a[0] == b[0] && a[1] == b[1]
    ensures a == b
  {
  }

  lemma SameSingleton<K, V>(m: map<K, V>, k: K, v: V)
    requires m.Keys == {k} && m[k] == v
    ensures m == map[k := v]
  {
  }

  lemma SameRule(x: GraphXfer, y: GraphXfer)
    requires x.tensorId == y.tensorId && x.srcOps == y.srcOps && |x.dstOps| == |y.dstOps| == 0
    requires x.mappedOutputs == y.mappedOutputs
    ensures x == y
  {
  }

  /** A producer with no inputs, two `X` gates and a consumer `Y`, chained. */
  function A(): Op { Op(1, Gate(0, 0, 0)) }
  function X1(): Op { Op(2, Gate(1, 1, 0)) }
  function X2(): Op { Op(3, Gate(1, 1, 0)) }
  function Y(): Op { Op(4, Gate(2, 1, 0)) }

  function Chain(): Graph {
    Graph(map[
      A() := [],
      X1() := [Edge(A(), 0, X1(), 0)],
      X2() := [Edge(X1(), 0, X2(), 0)],
      Y() := [Edge(X2(), 0, Y(), 0)]])
  }

  /** The state after binding `X1` to source operator 0. */
  function AfterX1(): MatchState {
    MatchState(map[X1() := 0], map[10 := [Obs(A(), 0)]], map[0 := X1()])
  }

  /** The state after also binding `X2` to source operator 1. */
  function AfterX2(): MatchState {
    MatchState(map[X1() := 0, X2() := 1], map[10 := [Obs(A(), 0)]], map[0 := X1(), 1 := X2()])
  }

  lemma FirstStep()
    ensures CanMatch(TwoXRule().srcOps, EmptyState(), Chain(), 0, X1())
    ensures Match(TwoXRule().srcOps, EmptyState(), Chain(), 0, X1()) == AfterX1()
  {
    var st1 := Match(TwoXRule().srcOps, EmptyState(), Chain(), 0, X1());
    assert SlotObs(Chain().inEdges[X1()], 0) == [Obs(A(), 0)];
    Extensionality(st1.mappedInputs, AfterX1().mappedInputs);
  }

  lemma SecondStep()
    ensures InputsBound(TwoXRule().srcOps[1].inputs, AfterX1())
    ensures CanMatch(TwoXRule().srcOps, AfterX1(), Chain(), 1, X2())
    ensures Match(TwoXRule().srcOps, AfterX1(), Chain(), 1, X2()) == AfterX2()
  {
    var st2 := Match(TwoXRule().srcOps, AfterX1(), Chain(), 1, X2());
    assert HasEdge(Chain(), X1(), X2(), 0, 0);
    Extensionality(st2.mappedInputs, AfterX2().mappedInputs);
    assert AfterX1().mappedOps[X2() := 1] == AfterX2().mappedOps;
    assert AfterX1().mapOp[1 := X2()] == AfterX2().mapOp;
  }

  lemma TerminalRedirect()
    ensures Instantiates(TwoXRule(), [])
    ensures BoundaryCovered(TwoXRule(), Chain(), AfterX2())
    ensures Leaving(Chain(), AfterX2(), Edge(X2(), 0, Y(), 0))
    ensures RedirectAsWritten(TwoXRule(), AfterX2(), [], Edge(X2(), 0, Y(), 0)).None?
    ensures Redirect(TwoXRule(), AfterX2(), [], Edge(X2(), 0, Y(), 0)) == Some(Edge(A(), 0, Y(), 0))
  {
    var g := Chain();
    var st := AfterX2();
    forall o, e | o in st.mappedOps && e in OutEdges(g, o) && e.dstOp !in st.mappedOps
      ensures TensorX(Some(st.mappedOps[o]), e.srcIdx) in TwoXRule().mappedOutputs
    {
      var d :| d in g.inEdges && e in g.inEdges[d] && e.srcOp == o;
      assert e == Edge(X2(), 0, Y(), 0);
    }
  }

  /** On `A -> X1 -> X2 -> Y`, the rule `X; X => identity` matches `X1, X2`
      (the two steps `run` takes), the boundary check passes, and the edge
      `X2 -> Y` must be redirected to the open destination wire 10: as
      written this dereferences its NULL operator, while resolving the wire
      through `mappedInputs` gives the intended edge `A -> Y`. */
  lemma PassThroughRedirect()
    ensures ValidPair(TwoX(), Wire()) && FromTemplates(TwoX(), Wire()) == TwoXRule()
    ensures BindsBothGates()
    ensures LeavingEdgeNeedsOpenWire()
  {
    TwoXRuleBuilt();
    FirstStep();
    SecondStep();
    TerminalRedirect();
  }

  /** `run` binds source operator 0 to `X1`, then source operator 1 to `X2`. */
  ghost predicate BindsBothGates() {
    && CanMatch(TwoXRule().srcOps, EmptyState(), Chain(), 0, X1())
    && Match(TwoXRule().srcOps, EmptyState(), Chain(), 0, X1()) == AfterX1()
    && InputsBound(TwoXRule().srcOps[1].inputs, AfterX1()) && X2() !in AfterX1().mappedOps
    && CanMatch(TwoXRule().srcOps, AfterX1(), Chain(), 1, X2())
    && Match(TwoXRule().srcOps, AfterX1(), Chain(), 1, X2()) == AfterX2()
  }

  /** The boundary check passes, `X2 -> Y` leaves the match, the step as
      written has no operator to redirect it to, and the corrected one sends
      it from `A`. */
  ghost predicate LeavingEdgeNeedsOpenWire() {
    && Instantiates(TwoXRule(), []) && BoundaryCovered(TwoXRule(), Chain(), AfterX2())
    && Leaving(Chain(), AfterX2(), Edge(X2(), 0, Y(), 0))
    && RedirectAsWritten(TwoXRule(), AfterX2(), [], Edge(X2(), 0, Y(), 0)).None?
    && Redirect(TwoXRule(), AfterX2(), [], Edge(X2(), 0, Y(), 0)) == Some(Edge(A(), 0, Y(), 0))
  }

  /** The corrected search cannot abort on this rule: the open wire its
      destination side leaves qubit 0 on is read by the source side. */
  lemma TwoXRuleClosed()
    ensures RuleClosed(TwoXRule())
  {
    var x := TwoXRule();
    assert x.srcOps[0].inputs[0] == TensorX(None, 10);
    assert ReadBySource(x, 10);
  }
}

=== FILE: matching.dfy ===
/** The matching predicate `can_match` and the commit/rollback pair
    `match`/`unmatch`, over the live matching state of one search. */
module Matching {
  import opened Base
  import opened Pattern
  import opened MultiMap

  /** The live matching state: `mappedOps` (concrete operator to the index of
      the source pattern operator bound to it), the open-wire multimap
      `mappedInputs`, and every source pattern operator's `mapOp` binding
      (a missing index is a cleared, NULL binding). */
  datatype MatchState = MatchState(mappedOps: map<Op, nat>, mappedInputs: MultiMap, mapOp: map<nat, Op>)

  function EmptyState(): MatchState {
    MatchState(map[], map[], map[])
  }

  /** Every bound input wire names a pattern operator that is already bound. */
  predicate InputsBound(ins: seq<TensorX>, st: MatchState) {
    forall i :: 0 <= i < |ins| && ins[i].op.Some? ==> ins[i].op.value in st.mapOp
  }

  // ---------------------------------------------------------------------
  // Reference definitions
  // ---------------------------------------------------------------------

  /** The producers observed at the open input slots `0 .. i-1` that carry
      wire `k`, slot by slot in order: what `match` records under `k`. */
  function RecordedUpTo(ins: seq<TensorX>, es: seq<Edge>, k: int, i: nat): seq<Obs>
    requires i <= |ins|
  {
    if i == 0 then []
    else if ins[i - 1].op.None? && ins[i - 1].idx == k then RecordedUpTo(ins, es, k, i - 1) + SlotObs(es, i - 1)
    else RecordedUpTo(ins, es, k, i - 1)
  }

  /** How many of the slots `0 .. i-1` are open inputs carrying wire `k`. */
  function OccUpTo(ins: seq<TensorX>, k: int, i: nat): nat
    requires i <= |ins|
  {
    if i == 0 then 0
    else OccUpTo(ins, k, i - 1) + (if ins[i - 1].op.None? && ins[i - 1].idx == k then 1 else 0)
  }

  /** The first producer seen for wire `k` at an earlier slot of the same
      operator, if any. */
  function FirstObserved(ins: seq<TensorX>, es: seq<Edge>, k: int, i: nat): Option<Obs>
    requires i <= |ins|
  {
    if i == 0 then None
    else
      match FirstObserved(ins, es, k, i - 1)
      case Some(o) => Some(o)
      case None => if ins[i - 1].op.None? && ins[i - 1].idx == k then FirstSlotObs(es, i - 1) else None
  }

  /** The first producer seen for wire `k` heads what `match` records under `k`. */
  lemma {:induction false} FirstObservedHead(ins: seq<TensorX>, es: seq<Edge>, k: int, i: nat)
    requires i <= |ins|
    ensures FirstObserved(ins, es, k, i) == Head(RecordedUpTo(ins, es, k, i))
  {
    if i > 0 {
      FirstObservedHead(ins, es, k, i - 1);
      if ins[i - 1].op.None? && ins[i - 1].idx == k {
        FirstSlotObsHead(es, i - 1);
        HeadAppend(RecordedUpTo(ins, es, k, i - 1), SlotObs(es, i - 1));
      }
    }
  }

  /** Slot `i` of a candidate `op` agrees with the pattern: a bound input
      needs the edge from its producer's bound operator; an open input already
      recorded, globally or at an earlier slot, needs the edge from the
      recorded producer; an open input seen for the first time is free. */
  predicate SlotAccepted(ins: seq<TensorX>, st: MatchState, g: Graph, op: Op, i: nat)
    requires i < |ins| && InputsBound(ins, st) && op in g.inEdges && Canonical(st.mappedInputs)
  {
    var t := ins[i];
    if t.op.Some? then HasEdge(g, st.mapOp[t.op.value], op, t.idx, i)
    else
      match Find(st.mappedInputs, t.idx)
      case Some(o) => HasEdge(g, o.op, op, o.idx, i)
      case None =>
        match FirstObserved(ins, g.inEdges[op], t.idx, i)
        case None => true
        case Some(o) => HasEdge(g, o.op, op, o.idx, i)
  }

  /** Declarative matching condition: same gate kind, same input count, and
      every slot accepted. */
  predicate CanMatchSpec(srcOps: seq<OpX>, st: MatchState, g: Graph, p: nat, op: Op)
    requires p < |srcOps| && op in g.inEdges && InputsBound(srcOps[p].inputs, st) && Canonical(st.mappedInputs)
  {
    && srcOps[p].tp == op.gate.tp
    && |srcOps[p].inputs| == NumInputs(op)
    && forall i :: 0 <= i < |srcOps[p].inputs| ==> SlotAccepted(srcOps[p].inputs, st, g, op, i)
  }

  // ---------------------------------------------------------------------
  // can_match
  // ---------------------------------------------------------------------

  /** The scratch-map loop of `can_match` for a first-seen open wire: every
      in-edge at slot `i` is offered to `std::map::insert`, which keeps an
      existing entry, so only the first such edge is kept. */
  function ObserveSlot(local: map<int, Obs>, k: int, es: seq<Edge>, i: int): (r: map<int, Obs>)
    decreases |es|
    ensures r == if k in local || FirstSlotObs(es, i).None? then local else local[k := FirstSlotObs(es, i).value]
  {
    if es == [] then local
    else
      var local' := if es[0].dstIdx == i && k !in local then local[k := Obs(es[0].srcOp, es[0].srcIdx)] else local;
      ObserveSlot(local', k, es[1..], i)
  }

  /** The slot loop of `can_match` from slot `i`, with its scratch map `local`. */
  function CanMatchFrom(ins: seq<TensorX>, i: nat, st: MatchState, g: Graph, op: Op, local: map<int, Obs>): bool
    requires i <= |ins| && InputsBound(ins, st) && op in g.inEdges && Canonical(st.mappedInputs)
    decreases |ins| - i
  {
    if i == |ins| then true
    else
      var t := ins[i];
      if t.op.None? then
        match Find(st.mappedInputs, t.idx)
        case Some(o) => HasEdge(g, o.op, op, o.idx, i) && CanMatchFrom(ins, i + 1, st, g, op, local)
        case None =>
          if t.idx in local then
            HasEdge(g, local[t.idx].op, op, local[t.idx].idx, i) && CanMatchFrom(ins, i + 1, st, g, op, local)
          else
            CanMatchFrom(ins, i + 1, st, g, op, ObserveSlot(local, t.idx, g.inEdges[op], i))
      else
        HasEdge(g, st.mapOp[t.op.value], op, t.idx, i) && CanMatchFrom(ins, i + 1, st, g, op, local)
  }

  /** `can_match(srcOps[p], op)`. It reads the state and returns a verdict;
      the state is an input only. */
  function CanMatch(srcOps: seq<OpX>, st: MatchState, g: Graph, p: nat, op: Op): (r: bool)
    requires p < |srcOps| && op in g.inEdges && InputsBound(srcOps[p].inputs, st) && Canonical(st.mappedInputs)
    ensures r ==> srcOps[p].tp == op.gate.tp && |srcOps[p].inputs| == NumInputs(op)
  {
    if srcOps[p].tp != op.gate.tp then false
    else if |srcOps[p].inputs| != NumInputs(op) then false
    else CanMatchFrom(srcOps[p].inputs, 0, st, g, op, map[])
  }

  /** The scratch map after slots `0 .. i-1` holds exactly the first producer
      observed for each wire not in `mappedInputs`. */
  ghost predicate LocalOk(ins: seq<TensorX>, es: seq<Edge>, mi: MultiMap, local: map<int, Obs>, i: nat)
    requires i <= |ins| && Canonical(mi)
  {
    forall k :: Find(mi, k).None? ==>
      && (k in local <==> FirstObserved(ins, es, k, i).Some?)
      && (k in local ==> local[k] == FirstObserved(ins, es, k, i).value)
  }

  /** The scratch map after slot `i` has been examined. */
  function NextLocal(ins: seq<TensorX>, es: seq<Edge>, mi: MultiMap, local: map<int, Obs>, i: nat): map<int, Obs>
    requires i < |ins| && Canonical(mi)
  {
    var t := ins[i];
    if t.op.None? && Find(mi, t.idx).None? && t.idx !in local then ObserveSlot(local, t.idx, es, i) else local
  }

  lemma LocalStep(ins: seq<TensorX>, es: seq<Edge>, mi: MultiMap, local: map<int, Obs>, i: nat)
    requires i < |ins| && Canonical(mi)
    requires LocalOk(ins, es, mi, local, i)
    ensures LocalOk(ins, es, mi, NextLocal(ins, es, mi, local, i), i + 1)
  {
  }

  /** One slot of the loop: with a consistent scratch map, examining slot `i`
      is accepting it and going on with the updated scratch map. */
  lemma SlotStep(ins: seq<TensorX>, i: nat, st: MatchState, g: Graph, op: Op, local: map<int, Obs>)
    requires i < |ins| && InputsBound(ins, st) && op in g.inEdges && Canonical(st.mappedInputs)
    requires LocalOk(ins, g.inEdges[op], st.mappedInputs, local, i)
    ensures CanMatchFrom(ins, i, st, g, op, local) ==
      (SlotAccepted(ins, st, g, op, i) &&
       CanMatchFrom(ins, i + 1, st, g, op, NextLocal(ins, g.inEdges[op], st.mappedInputs, local, i)))
  {
    var es := g.inEdges[op];
    var mi := st.mappedInputs;
    var t := ins[i];
    if t.op.None? && Find(mi, t.idx).None? {
      if t.idx in local {
        assert FirstObserved(ins, es, t.idx, i) == Some(local[t.idx]);
      } else {
        assert FirstObserved(ins, es, t.idx, i).None?;
      }
    }
  }

  /** Slots `i ..` are all accepted, stated slot by slot. */
  predicate AcceptedFrom(ins: seq<TensorX>, i: nat, st: MatchState, g: Graph, op: Op)
    requires i <= |ins| && InputsBound(ins, st) && op in g.inEdges && Canonical(st.mappedInputs)
    decreases |ins| - i
  {
    i == |ins| || (SlotAccepted(ins, st, g, op, i) && AcceptedFrom(ins, i + 1, st, g, op))
  }

  /** The slot loop of `can_match` from slot `i`, with a consistent scratch
      map, accepts exactly when every slot from `i` on is accepted. */
  lemma {:induction false} CanMatchFromIff(ins: seq<TensorX>, i: nat, st: MatchState, g: Graph, op: Op, local: map<int, Obs>)
    requires i <= |ins| && InputsBound(ins, st) && op in g.inEdges && Canonical(st.mappedInputs)
    requires LocalOk(ins, g.inEdges[op], st.mappedInputs, local, i)
    ensures CanMatchFrom(ins, i, st, g, op, local) == AcceptedFrom(ins, i, st, g, op)
    decreases |ins| - i
  {
    if i < |ins| {
      var local' := NextLocal(ins, g.inEdges[op], st.mappedInputs, local, i);
      LocalStep(ins, g.inEdges[op], st.mappedInputs, local, i);
      CanMatchFromIff(ins, i + 1, st, g, op, local');
      SlotStep(ins, i, st, g, op, local);
    }
  }

  /** The slot-by-slot statement and the quantified one agree. */
  lemma {:induction false} AcceptedFromAll(ins: seq<TensorX>, i: nat, st: MatchState, g: Graph, op: Op)
    requires i <= |ins| && InputsBound(ins, st) && op in g.inEdges && Canonical(st.mappedInputs)
    ensures AcceptedFrom(ins, i, st, g, op) <==> forall j :: i <= j < |ins| ==> SlotAccepted(ins, st, g, op, j)
    decreases |ins| - i
  {
    if i < |ins| {
      AcceptedFromAll(ins, i + 1, st, g, op);
      assert (forall j :: i <= j < |ins| ==> SlotAccepted(ins, st, g, op, j)) <==>
        SlotAccepted(ins, st, g, op, i) && forall j :: i + 1 <= j < |ins| ==> SlotAccepted(ins, st, g, op, j);
    }
  }

  /** `can_match` decides exactly the declarative matching condition. */
  lemma CanMatchIff(srcOps: seq<OpX>, st: MatchState, g: Graph, p: nat, op: Op)
    requires p < |srcOps| && op in g.inEdges && InputsBound(srcOps[p].inputs, st) && Canonical(st.mappedInputs)
    ensures CanMatch(srcOps, st, g, p, op) <==> CanMatchSpec(srcOps, st, g, p, op)
  {
    CanMatchFromIff(srcOps[p].inputs, 0, st, g, op, map[]);
    AcceptedFromAll(srcOps[p].inputs, 0, st, g, op);
  }

  // ---------------------------------------------------------------------
  // match / unmatch
  // ---------------------------------------------------------------------

  /** The inner loop of `match` for one open slot: every in-edge at slot `i`
      is inserted under wire `k`. */
  function RecordSlot(mi: MultiMap, k: int, es: seq<Edge>, i: int): (r: MultiMap)
    requires Canonical(mi)
    decreases |es|
    ensures Canonical(r)
    ensures forall k' :: Entries(r, k') == if k' == k then Entries(mi, k) + SlotObs(es, i) else Entries(mi, k')
  {
    if es == [] then mi
    else
      var mi' := if es[0].dstIdx == i then Insert(mi, k, Obs(es[0].srcOp, es[0].srcIdx)) else mi;
      RecordSlotStep(mi, k, es, i);
      RecordSlot(mi', k, es[1..], i)
  }

  /** One in-edge of the inner loop of `match`. */
  lemma RecordSlotStep(mi: MultiMap, k: int, es: seq<Edge>, i: int)
    requires Canonical(mi) && es != []
    ensures var mi' := if es[0].dstIdx == i then Insert(mi, k, Obs(es[0].srcOp, es[0].srcIdx)) else mi;
      && (forall k' :: k' != k ==> Entries(mi', k') == Entries(mi, k'))
      && Entries(mi', k) + SlotObs(es[1..], i) == Entries(mi, k) + SlotObs(es, i)
  {
  }

  /** The slot loop of `match` over slots `0 .. n-1`. */
  function RecordInputs(ins: seq<TensorX>, n: nat, es: seq<Edge>, mi: MultiMap): (r: MultiMap)
    requires n <= |ins| && Canonical(mi)
    ensures Canonical(r)
    ensures forall k :: Entries(r, k) == Entries(mi, k) + RecordedUpTo(ins, es, k, n)
  {
    if n == 0 then mi
    else
      var prev := RecordInputs(ins, n - 1, es, mi);
      RecordInputsStep(ins, n, es, mi, prev);
      if ins[n - 1].op.None? then RecordSlot(prev, ins[n - 1].idx, es, n - 1) else prev
  }

  /** Slot `n-1` of the loop of `match` extends what slots `0 .. n-2`
      recorded. */
  lemma RecordInputsStep(ins: seq<TensorX>, n: nat, es: seq<Edge>, mi: MultiMap, prev: MultiMap)
    requires 0 < n <= |ins| && Canonical(mi) && Canonical(prev)
    requires forall k :: Entries(prev, k) == Entries(mi, k) + RecordedUpTo(ins, es, k, n - 1)
    ensures var r := if ins[n - 1].op.None? then RecordSlot(prev, ins[n - 1].idx, es, n - 1) else prev;
      forall k :: Entries(r, k) == Entries(mi, k) + RecordedUpTo(ins, es, k, n)
  {
    forall k
      ensures Entries(if ins[n - 1].op.None? then RecordSlot(prev, ins[n - 1].idx, es, n - 1) else prev, k) ==
              Entries(mi, k) + RecordedUpTo(ins, es, k, n)
    {
      RecordInputsWire(ins, n, es, mi, prev, k);
    }
  }

  /** `RecordInputsStep` for one wire `k`. */
  lemma RecordInputsWire(ins: seq<TensorX>, n: nat, es: seq<Edge>, mi: MultiMap, prev: MultiMap, k: int)
    requires 0 < n <= |ins| && Canonical(mi) && Canonical(prev)
    requires Entries(prev, k) == Entries(mi, k) + RecordedUpTo(ins, es, k, n - 1)
    ensures var r := if ins[n - 1].op.None? then RecordSlot(prev, ins[n - 1].idx, es, n - 1) else prev;
      Entries(r, k) == Entries(mi, k) + RecordedUpTo(ins, es, k, n)
  {
    if ins[n - 1].op.None? && ins[n - 1].idx == k {
      AppendAssoc(Entries(mi, k), RecordedUpTo(ins, es, k, n - 1), SlotObs(es, n - 1));
    }
  }

  /** Concatenation is associative. */
  lemma AppendAssoc<T>(a: seq<T>, b: seq<T>, c: seq<T>)
    ensures a + b + c == a + (b + c)
  {
  }

  /** The slot loop of `unmatch` over slots `0 .. n-1`: one `erase(find(k))`
      per open slot. */
  function EraseInputs(ins: seq<TensorX>, n: nat, mi: MultiMap): (r: MultiMap)
    requires n <= |ins| && Canonical(mi)
    requires forall k :: OccUpTo(ins, k, n) <= |Entries(mi, k)|
    ensures Canonical(r)
    ensures forall k :: Entries(r, k) == Entries(mi, k)[OccUpTo(ins, k, n)..]
  {
    if n == 0 then mi
    else
      EraseStep(ins, n, mi);
      var prev := EraseInputs(ins, n - 1, mi);
      if ins[n - 1].op.None? then EraseFirst(prev, ins[n - 1].idx) else prev
  }

  /** Slot `n-1` of the loop of `unmatch`: the earlier slots need no more
      entries than all `n` do, and an open slot adds exactly one. */
  lemma EraseStep(ins: seq<TensorX>, n: nat, mi: MultiMap)
    requires 0 < n <= |ins|
    ensures forall k :: OccUpTo(ins, k, n - 1) <= OccUpTo(ins, k, n)
    ensures forall k :: OccUpTo(ins, k, n) == OccUpTo(ins, k, n - 1) + (if ins[n - 1].op.None? && ins[n - 1].idx == k then 1 else 0)
  {
  }

  /** `match(srcOps[p], op)`: records the producers feeding `op`'s open input
      slots, binds `srcOps[p]` to `op` and `op` to `p`. */
  function Match(srcOps: seq<OpX>, st: MatchState, g: Graph, p: nat, op: Op): (r: MatchState)
    requires p < |srcOps| && op in g.inEdges && Canonical(st.mappedInputs)
    ensures Canonical(r.mappedInputs)
    ensures forall k ::
              Entries(r.mappedInputs, k) ==
              Entries(st.mappedInputs, k) + RecordedUpTo(srcOps[p].inputs, g.inEdges[op], k, |srcOps[p].inputs|)
    ensures r.mapOp == st.mapOp[p := op] && r.mappedOps == st.mappedOps[op := p]
  {
    var ins := srcOps[p].inputs;
    MatchState(st.mappedOps[op := p], RecordInputs(ins, |ins|, g.inEdges[op], st.mappedInputs), st.mapOp[p := op])
  }

  /** What `unmatch(srcOps[p], _)` needs to avoid `erase(end())`: as many
      entries under each wire as `srcOps[p]` has open slots carrying it. */
  ghost predicate UnmatchDefined(srcOps: seq<OpX>, st: MatchState, p: nat)
    requires p < |srcOps|
  {
    && Canonical(st.mappedInputs)
    && forall k :: OccUpTo(srcOps[p].inputs, k, |srcOps[p].inputs|) <= |Entries(st.mappedInputs, k)|
  }

  /** `unmatch(srcOps[p], op)`: erases one entry per open slot, unbinds `op`
      and clears `srcOps[p]`'s binding. */
  function Unmatch(srcOps: seq<OpX>, st: MatchState, p: nat, op: Op): (r: MatchState)
    requires p < |srcOps| && UnmatchDefined(srcOps, st, p)
    ensures Canonical(r.mappedInputs)
    ensures forall k ::
              Entries(r.mappedInputs, k) ==
              Entries(st.mappedInputs, k)[OccUpTo(srcOps[p].inputs, k, |srcOps[p].inputs|)..]
    ensures r.mapOp == st.mapOp - {p} && r.mappedOps == st.mappedOps - {op}
  {
    var ins := srcOps[p].inputs;
    MatchState(st.mappedOps - {op}, EraseInputs(ins, |ins|, st.mappedInputs), st.mapOp - {p})
  }

  // ---------------------------------------------------------------------
  // Commit followed by rollback
  // ---------------------------------------------------------------------

  /** Every input slot of `op` has exactly one in-edge. */
  predicate SlotsSingle(g: Graph, op: Op)
    requires op in g.inEdges
  {
    forall i :: 0 <= i < NumInputs(op) ==> |SlotObs(g.inEdges[op], i)| == 1
  }

  /** Every element of `s` is `c`. */
  predicate AllAre(s: seq<Obs>, c: Obs) {
    forall x :: x in s ==> x == c
  }

  /** An accepted open slot with a single in-edge is fed by the producer
      already recorded for its wire, globally or at an earlier slot. */
  lemma OpenSlotProducer(ins: seq<TensorX>, st: MatchState, g: Graph, op: Op, s: nat)
    requires WellFormed(g) && op in g.inEdges && SlotsSingle(g, op)
    requires |ins| == NumInputs(op) && s < |ins| && InputsBound(ins, st) && Canonical(st.mappedInputs)
    requires ins[s].op.None? && SlotAccepted(ins, st, g, op, s)
    ensures |SlotObs(g.inEdges[op], s)| == 1
    ensures var f := Find(st.mappedInputs, ins[s].idx);
      f.Some? ==> SlotObs(g.inEdges[op], s) == [f.value]
    ensures var before := RecordedUpTo(ins, g.inEdges[op], ins[s].idx, s);
      Find(st.mappedInputs, ins[s].idx).None? && before != [] ==> SlotObs(g.inEdges[op], s) == [before[0]]
  {
    var es := g.inEdges[op];
    var k := ins[s].idx;
    match Find(st.mappedInputs, k)
    case Some(c) =>
      SingleSlotProducer(g, op, s, c.op, c.idx);
    case None =>
      var before := RecordedUpTo(ins, es, k, s);
      if before != [] {
        FirstObservedHead(ins, es, k, s);
        SingleSlotProducer(g, op, s, before[0].op, before[0].idx);
      }
  }

  /** What `match` records under wire `k` for an accepted operator with one
      in-edge per slot: one entry per open slot carrying `k`, each equal to
      the entry already recorded under `k`, or else all equal to each other. */
  lemma {:induction false} RecordedFacts(ins: seq<TensorX>, st: MatchState, g: Graph, op: Op, k: int, i: nat)
    requires WellFormed(g) && op in g.inEdges && SlotsSingle(g, op)
    requires |ins| == NumInputs(op) && i <= |ins| && InputsBound(ins, st) && Canonical(st.mappedInputs)
    requires forall j :: 0 <= j < i ==> SlotAccepted(ins, st, g, op, j)
    ensures RecordedOk(ins, st, g, op, k, i)
  {
    if i == 0 {
      RecordedNone(ins, st, g, op, k);
    } else {
      RecordedFacts(ins, st, g, op, k, i - 1);
      RecordedStep(ins, st, g, op, k, i);
    }
  }

  /** Before any slot nothing is recorded. */
  lemma RecordedNone(ins: seq<TensorX>, st: MatchState, g: Graph, op: Op, k: int)
    requires op in g.inEdges && Canonical(st.mappedInputs)
    ensures RecordedOk(ins, st, g, op, k, 0)
  {
  }

  /** The facts `RecordedFacts` states about slots `0 .. i-1`. */
  predicate RecordedOk(ins: seq<TensorX>, st: MatchState, g: Graph, op: Op, k: int, i: nat)
    requires op in g.inEdges && i <= |ins| && Canonical(st.mappedInputs)
  {
    var r := RecordedUpTo(ins, g.inEdges[op], k, i);
    var f := Find(st.mappedInputs, k);
    && |r| == OccUpTo(ins, k, i)
    && (f.Some? ==> AllAre(r, f.value))
    && (f.None? && r != [] ==> AllAre(r, r[0]))
  }

  /** The induction step of `RecordedFacts`: slot `i-1` added to slots `0 .. i-2`. */
  lemma RecordedStep(ins: seq<TensorX>, st: MatchState, g: Graph, op: Op, k: int, i: nat)
    requires WellFormed(g) && op in g.inEdges && SlotsSingle(g, op)
    requires |ins| == NumInputs(op) && 0 < i <= |ins| && InputsBound(ins, st) && Canonical(st.mappedInputs)
    requires SlotAccepted(ins, st, g, op, i - 1)
    ensures RecordedOk(ins, st, g, op, k, i - 1) ==> RecordedOk(ins, st, g, op, k, i)
  {
    var es := g.inEdges[op];
    var before := RecordedUpTo(ins, es, k, i - 1);
    if ins[i - 1].op.None? && ins[i - 1].idx == k {
      var o := OpenSlotFeeds(ins, st, g, op, i - 1);
      assert RecordedUpTo(ins, es, k, i) == before + [o];
      AllAreAppend(before, o);
      if before != [] {
        assert (before + [o])[0] == before[0];
      }
    } else {
      assert RecordedUpTo(ins, es, k, i) == before;
    }
  }

  /** The single producer of an accepted open slot, which is the entry already
      recorded for its wire, globally or at an earlier slot, if any. */
  lemma OpenSlotFeeds(ins: seq<TensorX>, st: MatchState, g: Graph, op: Op, s: nat) returns (o: Obs)
    requires WellFormed(g) && op in g.inEdges && SlotsSingle(g, op)
    requires |ins| == NumInputs(op) && s < |ins| && InputsBound(ins, st) && Canonical(st.mappedInputs)
    requires ins[s].op.None? && SlotAccepted(ins, st, g, op, s)
    ensures SlotObs(g.inEdges[op], s) == [o]
    ensures Find(st.mappedInputs, ins[s].idx).Some? ==> o == Find(st.mappedInputs, ins[s].idx).value
    ensures var before := RecordedUpTo(ins, g.inEdges[op], ins[s].idx, s);
      Find(st.mappedInputs, ins[s].idx).None? && before != [] ==> o == before[0]
  {
    OpenSlotProducer(ins, st, g, op, s);
    o := SlotObs(g.inEdges[op], s)[0];
  }

  /** Appending one more copy of the repeated observation. */
  lemma AllAreAppend(s: seq<Obs>, o: Obs)
    ensures AllAre(s, o) ==> AllAre(s + [o], o)
    ensures s != [] && AllAre(s, s[0]) && o == s[0] ==> AllAre(s + [o], s[0])
  {
  }

  /** Dropping as many leading entries as were appended gives back the old
      entries when all of them are one observation. */
  lemma DropAppended(e: seq<Obs>, r: seq<Obs>)
    requires e != [] ==> AllAre(e, e[0]) && AllAre(r, e[0])
    ensures (e + r)[|r|..] == e
  {
    if e != [] {
      var d := (e + r)[|r|..];
      assert |d| == |e|;
      forall a | 0 <= a < |e| ensures d[a] == e[a] {
        assert d[a] == (e + r)[|r| + a];
        assert (e + r)[|r| + a] in e + r;
        assert e[a] in e;
      }
    }
  }

  /** One wire's entries after `match` then `unmatch`. */
  lemma RestoreWire(ins: seq<TensorX>, st: MatchState, g: Graph, op: Op, k: int)
    requires WellFormed(g) && op in g.inEdges && SlotsSingle(g, op)
    requires |ins| == NumInputs(op) && InputsBound(ins, st) && Canonical(st.mappedInputs) && Uniform(st.mappedInputs)
    requires forall j :: 0 <= j < |ins| ==> SlotAccepted(ins, st, g, op, j)
    ensures var e := Entries(st.mappedInputs, k) + RecordedUpTo(ins, g.inEdges[op], k, |ins|);
      OccUpTo(ins, k, |ins|) <= |e| && e[OccUpTo(ins, k, |ins|)..] == Entries(st.mappedInputs, k)
  {
    RecordedFacts(ins, st, g, op, k, |ins|);
    var e := Entries(st.mappedInputs, k);
    if e != [] {
      assert AllAre(e, e[0]) by {
        forall x | x in e ensures x == e[0] {
          var a :| 0 <= a < |e| && e[a] == x;
        }
      }
    }
    DropAppended(e, RecordedUpTo(ins, g.inEdges[op], k, |ins|));
  }

  /** `match` followed by `unmatch` on an operator `can_match` accepted, with
      one in-edge per input slot and a consistent multimap, restores
      `mappedOps` and `mappedInputs` exactly (hence also as a multiset) and
      clears the pattern operator's binding. */
  lemma MatchUnmatchRestores(srcOps: seq<OpX>, st: MatchState, g: Graph, p: nat, op: Op)
    requires WellFormed(g) && p < |srcOps| && op in g.inEdges && SlotsSingle(g, op)
    requires InputsBound(srcOps[p].inputs, st) && Canonical(st.mappedInputs) && Uniform(st.mappedInputs)
    requires op !in st.mappedOps
    requires CanMatch(srcOps, st, g, p, op)
    ensures UnmatchDefined(srcOps, Match(srcOps, st, g, p, op), p)
    ensures Unmatch(srcOps, Match(srcOps, st, g, p, op), p, op) ==
      MatchState(st.mappedOps, st.mappedInputs, st.mapOp - {p})
  {
    RestoreInputs(srcOps, st, g, p, op);
    UpdateRemove(st.mappedOps, op, p);
    UpdateRemove(st.mapOp - {p}, p, op);
    assert st.mapOp[p := op] - {p} == (st.mapOp - {p})[p := op] - {p};
  }

  /** The multimap half of `MatchUnmatchRestores`. */
  lemma RestoreInputs(srcOps: seq<OpX>, st: MatchState, g: Graph, p: nat, op: Op)
    requires WellFormed(g) && p < |srcOps| && op in g.inEdges && SlotsSingle(g, op)
    requires InputsBound(srcOps[p].inputs, st) && Canonical(st.mappedInputs) && Uniform(st.mappedInputs)
    requires CanMatch(srcOps, st, g, p, op)
    ensures UnmatchDefined(srcOps, Match(srcOps, st, g, p, op), p)
    ensures Unmatch(srcOps, Match(srcOps, st, g, p, op), p, op).mappedInputs == st.mappedInputs
  {
    var ins := srcOps[p].inputs;
    var mi := st.mappedInputs;
    assert |ins| == NumInputs(op) && forall j :: 0 <= j < |ins| ==> SlotAccepted(ins, st, g, op, j) by {
      CanMatchIff(srcOps, st, g, p, op);
    }
    var m := Match(srcOps, st, g, p, op);
    forall k ensures OccUpTo(ins, k, |ins|) <= |Entries(m.mappedInputs, k)|
      ensures Entries(m.mappedInputs, k)[OccUpTo(ins, k, |ins|)..] == Entries(mi, k)
    {
      RestoreWire(ins, st, g, op, k);
    }
    var u := Unmatch(srcOps, m, p, op);
    Extensionality(u.mappedInputs, mi);
  }

  /** One wire's entries after `match` are all one observation. */
  lemma KeepsUniformWire(ins: seq<TensorX>, st: MatchState, g: Graph, op: Op, k: int)
    requires WellFormed(g) && op in g.inEdges && SlotsSingle(g, op)
    requires |ins| == NumInputs(op) && InputsBound(ins, st) && Canonical(st.mappedInputs) && Uniform(st.mappedInputs)
    requires forall j :: 0 <= j < |ins| ==> SlotAccepted(ins, st, g, op, j)
    ensures var e := Entries(st.mappedInputs, k) + RecordedUpTo(ins, g.inEdges[op], k, |ins|);
      e != [] ==> AllAre(e, e[0])
  {
    RecordedFacts(ins, st, g, op, k, |ins|);
    var e := Entries(st.mappedInputs, k);
    var r := RecordedUpTo(ins, g.inEdges[op], k, |ins|);
    if e != [] {
      assert AllAre(e, e[0]) by {
        forall x | x in e ensures x == e[0] {
          var a :| 0 <= a < |e| && e[a] == x;
        }
      }
      assert (e + r)[0] == e[0];
    } else if r != [] {
      assert e + r == r;
    }
  }

  /** After `match` on an accepted operator with one in-edge per slot, the
      multimap is still consistent, earlier first entries are kept, and every
      open slot of the operator is fed by the first entry of its wire. */
  lemma MatchFacts(srcOps: seq<OpX>, st: MatchState, g: Graph, p: nat, op: Op)
    requires WellFormed(g) && p < |srcOps| && op in g.inEdges && SlotsSingle(g, op)
    requires InputsBound(srcOps[p].inputs, st) && Canonical(st.mappedInputs) && Uniform(st.mappedInputs)
    requires CanMatch(srcOps, st, g, p, op)
    ensures var mi' := Match(srcOps, st, g, p, op).mappedInputs;
      && Uniform(mi')
      && (forall k :: Find(st.mappedInputs, k).Some? ==> Find(mi', k) == Find(st.mappedInputs, k))
      && (forall i :: 0 <= i < |srcOps[p].inputs| && srcOps[p].inputs[i].op.None? ==>
            var f := Find(mi', srcOps[p].inputs[i].idx);
            f.Some? && HasEdge(g, f.value.op, op, f.value.idx, i))
  {
    var ins := srcOps[p].inputs;
    var mi' := Match(srcOps, st, g, p, op).mappedInputs;
    forall k, a | k in mi' && 0 <= a < |mi'[k]| ensures mi'[k][a] == mi'[k][0] {
      MatchKeepsWireUniform(srcOps, st, g, p, op, k);
      assert mi'[k] == Entries(mi', k);
    }
    forall i | 0 <= i < |ins| && ins[i].op.None?
      ensures var f := Find(mi', ins[i].idx); f.Some? && HasEdge(g, f.value.op, op, f.value.idx, i)
    {
      MatchFeedsSlot(srcOps, st, g, p, op, i);
    }
  }

  /** After an accepted `match`, each wire's entries are one observation. */
  lemma MatchKeepsWireUniform(srcOps: seq<OpX>, st: MatchState, g: Graph, p: nat, op: Op, k: int)
    requires WellFormed(g) && p < |srcOps| && op in g.inEdges && SlotsSingle(g, op)
    requires InputsBound(srcOps[p].inputs, st) && Canonical(st.mappedInputs) && Uniform(st.mappedInputs)
    requires CanMatch(srcOps, st, g, p, op)
    ensures var e := Entries(Match(srcOps, st, g, p, op).mappedInputs, k);
      forall a :: 0 <= a < |e| ==> e[a] == e[0]
  {
    var ins := srcOps[p].inputs;
    assert |ins| == NumInputs(op) && forall j :: 0 <= j < |ins| ==> SlotAccepted(ins, st, g, op, j) by {
      CanMatchIff(srcOps, st, g, p, op);
    }
    KeepsUniformWire(ins, st, g, op, k);
    var e := Entries(Match(srcOps, st, g, p, op).mappedInputs, k);
    forall a | 0 <= a < |e| ensures e[a] == e[0] {
      assert e[a] in e;
    }
  }

  /** After an accepted `match`, open slot `i` is fed by the first entry of its wire. */
  lemma MatchFeedsSlot(srcOps: seq<OpX>, st: MatchState, g: Graph, p: nat, op: Op, i: nat)
    requires WellFormed(g) && p < |srcOps| && op in g.inEdges && SlotsSingle(g, op)
    requires InputsBound(srcOps[p].inputs, st) && Canonical(st.mappedInputs) && Uniform(st.mappedInputs)
    requires CanMatch(srcOps, st, g, p, op)
    requires i < |srcOps[p].inputs| && srcOps[p].inputs[i].op.None?
    ensures var f := Find(Match(srcOps, st, g, p, op).mappedInputs, srcOps[p].inputs[i].idx);
      f.Some? && HasEdge(g, f.value.op, op, f.value.idx, i)
  {
    var ins := srcOps[p].inputs;
    var es := g.inEdges[op];
    var k := ins[i].idx;
    assert |ins| == NumInputs(op) && forall j :: 0 <= j < |ins| ==> SlotAccepted(ins, st, g, op, j) by {
      CanMatchIff(srcOps, st, g, p, op);
    }
    KeepsUniformWire(ins, st, g, op, k);
    var e := Entries(st.mappedInputs, k) + RecordedUpTo(ins, es, k, |ins|);
    var o := SlotObs(es, i)[0];
    assert o in SlotObs(es, i);
    RecordedContains(ins, es, k, i, |ins|);
    assert o in e;
    assert Entries(Match(srcOps, st, g, p, op).mappedInputs, k) == e;
    SlotObsHasEdge(g, op, i, o);
  }

  /** The producers of an open slot carrying `k` are among those recorded under `k`. */
  lemma RecordedContains(ins: seq<TensorX>, es: seq<Edge>, k: int, i: nat, n: nat)
    requires i < n <= |ins| && ins[i].op.None? && ins[i].idx == k
    ensures forall o :: o in SlotObs(es, i) ==> o in RecordedUpTo(ins, es, k, n)
  {
    if n - 1 > i {
      RecordedContains(ins, es, k, i, n - 1);
    }
  }
}

=== FILE: multimap.dfy ===
/** The open-wire multimap `mappedInputs` (`std::multimap<int, pair<Op, int>>`).
    Entries under one key are kept in insertion order: `insert` adds after the
    existing equal keys and `find` returns the first of them (the standard
    only promises "some" entry; this is the lower-bound entry the usual
    red-black-tree implementation returns). A key with no entries is absent. */
module MultiMap {
  import opened Base

  type MultiMap = map<int, seq<Obs>>

  /** No key is present with an empty entry list. */
  predicate Canonical(m: MultiMap) {
    forall k :: k in m ==> m[k] != []
  }

  /** Every key's entries are one and the same observation. */
  predicate Uniform(m: MultiMap) {
    forall k, a :: k in m && 0 <= a < |m[k]| ==> m[k][a] == m[k][0]
  }

  /** The entries under `k`, oldest first. */
  function Entries(m: MultiMap, k: int): seq<Obs> {
    if k in m then m[k] else []
  }

  /** `find`: the first entry under `k`, if any. */
  function Find(m: MultiMap, k: int): (r: Option<Obs>)
    requires Canonical(m)
    ensures r.None? <==> Entries(m, k) == []
    ensures r.Some? ==> r.value == Entries(m, k)[0]
  {
    if k in m then Some(m[k][0]) else None
  }

  /** `insert`: a new entry after the existing ones under `k`. */
  function Insert(m: MultiMap, k: int, o: Obs): (r: MultiMap)
    requires Canonical(m)
    ensures Canonical(r)
    ensures forall k' :: Entries(r, k') == if k' == k then Entries(m, k) + [o] else Entries(m, k')
  {
    m[k := Entries(m, k) + [o]]
  }

  /** `erase(find(k))`: drops the first entry under `k`. */
  function EraseFirst(m: MultiMap, k: int): (r: MultiMap)
    requires Canonical(m) && Entries(m, k) != []
    ensures Canonical(r)
    ensures forall k' :: Entries(r, k') == if k' == k then Entries(m, k)[1..] else Entries(m, k')
  {
    if |m[k]| == 1 then m - {k} else m[k := m[k][1..]]
  }

  /** Canonical multimaps are equal when they agree on every key's entries. */
  lemma Extensionality(a: MultiMap, b: MultiMap)
    requires Canonical(a) && Canonical(b)
    requires forall k :: Entries(a, k) == Entries(b, k)
    ensures a == b
  {
    assert a.Keys == b.Keys by {
      forall k ensures k in a <==> k in b {
        assert Entries(a, k) == Entries(b, k);
      }
    }
    forall k | k in a ensures a[k] == b[k] {
      assert Entries(a, k) == Entries(b, k);
    }
  }
}

=== FILE: newgraph.dfy ===
/** The terminal step of the search: instantiating the destination pattern's
    operators (`create_new_operator`), the boundary check on edges leaving the
    matched region, and building the replacement graph (`create_new_graph`). */
module NewGraph {
  import opened Base
  import opened Pattern
  import opened MultiMap
  import opened Matching

  // ---------------------------------------------------------------------
  // Instantiating destination operators
  // ---------------------------------------------------------------------

  /** What the engine uses of its context: the gate library (a partial map
      from gate kind to gate; a missing kind cannot be instantiated) and the
      global unique-id counter. */
  datatype Context = Context(library: map<GateType, Gate>, nextGuid: nat)

  /** `create_new_operator`: takes the next unique id whether or not the gate
      kind can be instantiated. */
  function CreateNewOperator(ctx: Context, tp: GateType): (r: (Option<Op>, Context))
    ensures r.1 == Context(ctx.library, ctx.nextGuid + 1)
    ensures r.0.Some? <==> tp in ctx.library
    ensures r.0.Some? ==> r.0.value.guid == ctx.nextGuid && r.0.value.gate == ctx.library[tp]
  {
    var ctx' := Context(ctx.library, ctx.nextGuid + 1);
    if tp in ctx.library then (Some(Op(ctx.nextGuid, ctx.library[tp])), ctx') else (None, ctx')
  }

  /** The destination-operator loop of `run`: one `create_new_operator` per
      destination pattern operator, in order, stopping at the first failure
      (the `if (pass)` guard). On success, operator `j` carries id
      `nextGuid + j`; on failure exactly the ids up to the first
      uninstantiable kind have been used. */
  function CreateDstOps(dstOps: seq<OpX>, ctx: Context): (r: (Option<seq<Op>>, Context))
    ensures r.1.library == ctx.library
    ensures r.0.Some? <==> forall j :: 0 <= j < |dstOps| ==> dstOps[j].tp in ctx.library
    ensures r.0.Some? ==>
      && |r.0.value| == |dstOps|
      && r.1.nextGuid == ctx.nextGuid + |dstOps|
      && forall j :: 0 <= j < |dstOps| ==> r.0.value[j] == Op(ctx.nextGuid + j, ctx.library[dstOps[j].tp])
    ensures r.0.None? ==> exists j ::
      && 0 <= j < |dstOps| && dstOps[j].tp !in ctx.library
      && (forall j' :: 0 <= j' < j ==> dstOps[j'].tp in ctx.library)
      && r.1.nextGuid == ctx.nextGuid + j + 1
  {
    if dstOps == [] then (Some([]), ctx)
    else
      var (o, ctx1) := CreateNewOperator(ctx, dstOps[0].tp);
      if o.None? then (None, ctx1)
      else
        var (rest, ctx2) := CreateDstOps(dstOps[1..], ctx1);
        if rest.None? then
          var j :| 0 <= j < |dstOps| - 1 && dstOps[1..][j].tp !in ctx.library
            && (forall j' :: 0 <= j' < j ==> dstOps[1..][j'].tp in ctx.library)
            && ctx2.nextGuid == ctx1.nextGuid + j + 1;
          assert forall j' :: 0 <= j' < j + 1 ==> dstOps[j'].tp in ctx.library by {
            forall j' | 0 < j' < j + 1 ensures dstOps[j'].tp in ctx.library {
              assert dstOps[j'] == dstOps[1..][j' - 1];
            }
          }
          (None, ctx2)
        else
          (Some([o.value] + rest.value), ctx2)
  }

  /** Every operator of `g` has an id below `n`. */
  predicate GuidsBelow(g: Graph, n: nat) {
    forall o :: o in g.inEdges ==> o.guid < n
  }

  /** Destination operators created from a counter above every id in the
      searched graph are new to it and pairwise distinct. */
  lemma DstOpsFresh(dstOps: seq<OpX>, ctx: Context, g: Graph)
    requires GuidsBelow(g, ctx.nextGuid)
    ensures var r := CreateDstOps(dstOps, ctx);
      r.0.Some? ==>
        && (forall j :: 0 <= j < |r.0.value| ==> r.0.value[j] !in g.inEdges)
        && (forall j, j' :: 0 <= j < j' < |r.0.value| ==> r.0.value[j] != r.0.value[j'])
        && GuidsBelow(g, r.1.nextGuid)
  {
    var r := CreateDstOps(dstOps, ctx);
    if r.0.Some? {
      forall j | 0 <= j < |r.0.value| ensures r.0.value[j] !in g.inEdges {
        assert r.0.value[j].guid == ctx.nextGuid + j;
      }
      forall j, j' | 0 <= j < j' < |r.0.value| ensures r.0.value[j] != r.0.value[j'] {
        assert r.0.value[j].guid == ctx.nextGuid + j;
        assert r.0.value[j'].guid == ctx.nextGuid + j';
      }
    }
  }

  // ---------------------------------------------------------------------
  // Boundary check
  // ---------------------------------------------------------------------

  /** The boundary check of `run`: every out-edge of a matched operator that
      ends at an unmatched operator leaves through a (pattern operator, slot)
      pair that `mappedOutputs` maps. */
  predicate BoundaryCovered(x: GraphXfer, g: Graph, st: MatchState) {
    forall o, e :: o in st.mappedOps && e in OutEdges(g, o) && e.dstOp !in st.mappedOps ==>
      TensorX(Some(st.mappedOps[o]), e.srcIdx) in x.mappedOutputs
  }

  /** The edges `create_new_graph` redirects: from a matched to an unmatched
      operator of the searched graph. */
  predicate Leaving(g: Graph, st: MatchState, e: Edge) {
    e.dstOp in g.inEdges && e in g.inEdges[e.dstOp] && e.srcOp in st.mappedOps && e.dstOp !in st.mappedOps
  }

  /** The boundary check is what makes `create_new_graph`'s lookup of a
      redirected edge's source wire in `mappedOutputs` succeed. */
  lemma BoundaryCoveredFindsOutputs(x: GraphXfer, g: Graph, st: MatchState)
    requires WellFormed(g)
    ensures BoundaryCovered(x, g, st) <==>
      forall e :: Leaving(g, st, e) ==> TensorX(Some(st.mappedOps[e.srcOp]), e.srcIdx) in x.mappedOutputs
  {
    if !BoundaryCovered(x, g, st) {
      var o, e :| o in st.mappedOps && e in OutEdges(g, o) && e.dstOp !in st.mappedOps &&
        TensorX(Some(st.mappedOps[o]), e.srcIdx) !in x.mappedOutputs;
      var d :| d in g.inEdges && e in g.inEdges[d] && e.srcOp == o;
      assert Leaving(g, st, e);
    }
  }

  // ---------------------------------------------------------------------
  // create_new_graph
  // ---------------------------------------------------------------------

  /** An instantiation of the destination pattern: one concrete operator per
      destination pattern operator. */
  predicate Instantiates(x: GraphXfer, dstMap: seq<Op>) {
    RuleWellFormed(x) && |dstMap| == |x.dstOps|
  }

  /** Where a destination-pattern wire is produced in the new graph: a bound
      wire at the instantiated destination operator's slot, an open wire at
      the producer recorded for it in `mappedInputs` (`None` when nothing is
      recorded, the failing lookup). */
  function ResolveDst(mi: MultiMap, dstMap: seq<Op>, t: TensorX): (r: Option<Obs>)
    requires Canonical(mi) && (t.op.Some? ==> t.op.value < |dstMap|)
    ensures t.op.Some? ==> r == Some(Obs(dstMap[t.op.value], t.idx))
    ensures t.op.None? ==> r == Find(mi, t.idx)
  {
    if t.op.Some? then Some(Obs(dstMap[t.op.value], t.idx)) else Find(mi, t.idx)
  }

  /** The new edge replacing a leaving edge `e`: from wherever the
      destination wire that `mappedOutputs` pairs with `e`'s source wire is
      produced, to `e`'s consumer slot. `None` when the source wire is not
      mapped or the destination wire cannot be resolved. */
  function Redirect(x: GraphXfer, st: MatchState, dstMap: seq<Op>, e: Edge): (r: Option<Edge>)
    requires Instantiates(x, dstMap) && Canonical(st.mappedInputs) && e.srcOp in st.mappedOps
    ensures r.Some? ==> r.value.dstOp == e.dstOp && r.value.dstIdx == e.dstIdx
    ensures r.Some? <==> var srcTen := TensorX(Some(st.mappedOps[e.srcOp]), e.srcIdx);
      srcTen in x.mappedOutputs && ResolveDst(st.mappedInputs, dstMap, x.mappedOutputs[srcTen]).Some?
    ensures r.Some? ==> var srcTen := TensorX(Some(st.mappedOps[e.srcOp]), e.srcIdx);
      Some(Obs(r.value.srcOp, r.value.srcIdx)) == ResolveDst(st.mappedInputs, dstMap, x.mappedOutputs[srcTen])
  {
    var srcTen := TensorX(Some(st.mappedOps[e.srcOp]), e.srcIdx);
    if srcTen !in x.mappedOutputs then None
    else
      match ResolveDst(st.mappedInputs, dstMap, x.mappedOutputs[srcTen])
      case None => None
      case Some(o) => Some(Edge(o.op, o.idx, e.dstOp, e.dstIdx))
  }

  /** The inner loop of step 2 for one unmatched consumer: each in-edge from
      an unmatched producer is copied, each from a matched producer is
      redirected. */
  function RebuildInEdges(x: GraphXfer, st: MatchState, dstMap: seq<Op>, es: seq<Edge>): (r: Option<seq<Edge>>)
    requires Instantiates(x, dstMap) && Canonical(st.mappedInputs)
    ensures r.None? <==> exists e :: e in es && e.srcOp in st.mappedOps && Redirect(x, st, dstMap, e).None?
    ensures r.Some? ==> forall e :: e in r.value <==>
      || (e in es && e.srcOp !in st.mappedOps)
      || (exists e0 :: e0 in es && e0.srcOp in st.mappedOps && Redirect(x, st, dstMap, e0) == Some(e))
  {
    if es == [] then Some([])
    else
      var head := if es[0].srcOp in st.mappedOps then Redirect(x, st, dstMap, es[0]) else Some(es[0]);
      var rest := RebuildInEdges(x, st, dstMap, es[1..]);
      assert forall e :: e in es <==> e == es[0] || e in es[1..];
      if head.None? || rest.None? then None else Some([head.value] + rest.value)
  }

  /** An edge of the searched graph between two unmatched operators. */
  ghost predicate Copied(g: Graph, st: MatchState, e: Edge) {
    e.dstOp in g.inEdges && e in g.inEdges[e.dstOp] && e.srcOp !in st.mappedOps && e.dstOp !in st.mappedOps
  }

  /** The replacement of some leaving edge. */
  ghost predicate Redirected(x: GraphXfer, g: Graph, st: MatchState, dstMap: seq<Op>, e: Edge)
    requires Instantiates(x, dstMap) && Canonical(st.mappedInputs)
  {
    exists e0 :: Leaving(g, st, e0) && Redirect(x, st, dstMap, e0) == Some(e)
  }

  /** Step 2 of `create_new_graph` over the consumers in `order`. */
  function RebuildUnmatched(x: GraphXfer, g: Graph, st: MatchState, dstMap: seq<Op>, order: seq<Op>): (r: Option<seq<Edge>>)
    requires Instantiates(x, dstMap) && Canonical(st.mappedInputs) && WellFormed(g)
    requires forall o :: o in order ==> o in g.inEdges
    ensures r.None? <==> exists e: Edge :: e.dstOp in order && Leaving(g, st, e) && Redirect(x, st, dstMap, e).None?
    ensures r.Some? ==> forall e :: e in r.value <==>
      || (e.dstOp in order && Copied(g, st, e))
      || (exists e0: Edge :: e0.dstOp in order && Leaving(g, st, e0) && Redirect(x, st, dstMap, e0) == Some(e))
  {
    if order == [] then Some([])
    else
      var o := order[0];
      var here := if o !in st.mappedOps then RebuildInEdges(x, st, dstMap, g.inEdges[o]) else Some([]);
      var rest := RebuildUnmatched(x, g, st, dstMap, order[1..]);
      assert forall o' :: o' in order <==> o' == o || o' in order[1..];
      if here.None? || rest.None? then None else Some(here.value + rest.value)
  }

  /** Step 3 for destination operator `d` with input wires `ins`: one edge
      into each of the slots `0 .. n-1`, from where its wire is produced. */
  function WireInputs(mi: MultiMap, dstMap: seq<Op>, ins: seq<TensorX>, d: Op, n: nat): (r: Option<seq<Edge>>)
    requires Canonical(mi) && n <= |ins|
    requires forall i :: 0 <= i < |ins| && ins[i].op.Some? ==> ins[i].op.value < |dstMap|
    ensures r.None? <==> exists i :: 0 <= i < n && ResolveDst(mi, dstMap, ins[i]).None?
    ensures r.Some? ==> forall e :: e in r.value <==>
      e.dstOp == d && 0 <= e.dstIdx < n && ResolveDst(mi, dstMap, ins[e.dstIdx]) == Some(Obs(e.srcOp, e.srcIdx))
  {
    if n == 0 then Some([])
    else
      var prev := WireInputs(mi, dstMap, ins, d, n - 1);
      match ResolveDst(mi, dstMap, ins[n - 1])
      case None => None
      case Some(o) => if prev.None? then None else Some(prev.value + [Edge(o.op, o.idx, d, n - 1)])
  }

  /** An edge into an instantiated destination operator. */
  ghost predicate Wired(x: GraphXfer, mi: MultiMap, dstMap: seq<Op>, e: Edge)
    requires Instantiates(x, dstMap) && Canonical(mi)
  {
    exists j :: 0 <= j < |x.dstOps| && e.dstOp == dstMap[j] && 0 <= e.dstIdx < |x.dstOps[j].inputs| &&
      ResolveDst(mi, dstMap, x.dstOps[j].inputs[e.dstIdx]) == Some(Obs(e.srcOp, e.srcIdx))
  }

  /** A destination input whose wire cannot be resolved: the failing lookup
      guarded by the assertion on `mappedInputs.find`. */
  ghost predicate DstInputUnresolved(x: GraphXfer, mi: MultiMap, dstMap: seq<Op>)
    requires Instantiates(x, dstMap) && Canonical(mi)
  {
    exists j, i :: 0 <= j < |x.dstOps| && 0 <= i < |x.dstOps[j].inputs| &&
      ResolveDst(mi, dstMap, x.dstOps[j].inputs[i]).None?
  }

  /** Step 3 of `create_new_graph` over destination operators `0 .. n-1`. */
  function WireDstOps(x: GraphXfer, mi: MultiMap, dstMap: seq<Op>, n: nat): (r: Option<seq<Edge>>)
    requires Instantiates(x, dstMap) && Canonical(mi) && n <= |x.dstOps|
    ensures r.None? <==>
      exists j, i :: 0 <= j < n && 0 <= i < |x.dstOps[j].inputs| && ResolveDst(mi, dstMap, x.dstOps[j].inputs[i]).None?
    ensures r.Some? ==> forall e :: e in r.value <==>
      exists j :: 0 <= j < n && e.dstOp == dstMap[j] && 0 <= e.dstIdx < |x.dstOps[j].inputs| &&
        ResolveDst(mi, dstMap, x.dstOps[j].inputs[e.dstIdx]) == Some(Obs(e.srcOp, e.srcIdx))
  {
    if n == 0 then Some([])
    else
      var prev := WireDstOps(x, mi, dstMap, n - 1);
      var ins := x.dstOps[n - 1].inputs;
      assert forall i :: 0 <= i < |ins| && ins[i].op.Some? ==> ins[i].op.value < |dstMap| by {
        assert Topological(x.dstOps);
      }
      var here := WireInputs(mi, dstMap, ins, dstMap[n - 1], |ins|);
      if prev.None? || here.None? then None else Some(prev.value + here.value)
  }

  /** `e` is in the in-edge set of its consumer. */
  predicate InGraph(ng: EdgeSets, e: Edge) {
    e.dstOp in ng && e in ng[e.dstOp]
  }

  /** Every edge of a built graph is filed under its own consumer. */
  predicate FiledAtConsumer(ng: EdgeSets) {
    forall d, e :: d in ng && e in ng[d] ==> e.dstOp == d
  }

  /** `add_edge` on the in-edge side: the consumer gets an entry if it had
      none, and the edge joins its set. */
  function AddEdge(ng: EdgeSets, e: Edge): (r: EdgeSets)
    requires FiledAtConsumer(ng)
    ensures FiledAtConsumer(r)
    ensures r.Keys == ng.Keys + {e.dstOp}
    ensures forall e' :: InGraph(r, e') <==> InGraph(ng, e') || e' == e
  {
    ng[e.dstOp := (if e.dstOp in ng then ng[e.dstOp] else {}) + {e}]
  }

  /** `add_edge` for each edge of `es` in turn. */
  function AddEdges(ng: EdgeSets, es: seq<Edge>): (r: EdgeSets)
    requires FiledAtConsumer(ng)
    ensures FiledAtConsumer(r)
    ensures r.Keys == ng.Keys + set e | e in es :: e.dstOp
    ensures forall e :: InGraph(r, e) <==> InGraph(ng, e) || e in es
    decreases |es|
  {
    if es == [] then ng
    else
      var r := AddEdges(AddEdge(ng, es[0]), es[1..]);
      assert forall e :: e in es <==> e == es[0] || e in es[1..];
      r
  }

  /** `create_new_graph`, with the lookups it asserts on made
      explicit: `None` when a leaving edge cannot be redirected or a
      destination input cannot be resolved. On success the new graph holds
      exactly the copied edges, the redirected edges and the edges into the
      instantiated destination operators. */
  function CreateNewGraph(x: GraphXfer, g: Graph, order: seq<Op>, st: MatchState, dstMap: seq<Op>): (r: Option<EdgeSets>)
    requires Instantiates(x, dstMap) && Canonical(st.mappedInputs) && WellFormed(g)
    requires forall o :: o in order <==> o in g.inEdges
    ensures r.None? <==>
      || (exists e :: Leaving(g, st, e) && Redirect(x, st, dstMap, e).None?)
      || DstInputUnresolved(x, st.mappedInputs, dstMap)
    ensures r.Some? ==> FiledAtConsumer(r.value)
    ensures r.Some? ==> forall e :: InGraph(r.value, e) <==>
      || Copied(g, st, e)
      || Redirected(x, g, st, dstMap, e)
      || Wired(x, st.mappedInputs, dstMap, e)
  {
    var step2 := RebuildUnmatched(x, g, st, dstMap, order);
    var step3 := WireDstOps(x, st.mappedInputs, dstMap, |x.dstOps|);
    if step2.None? || step3.None? then None
    else
      var ng := AddEdges(map[], step2.value + step3.value);
      assert forall e :: e in step2.value + step3.value <==> e in step2.value || e in step3.value;
      Some(ng)
  }

  /** No edge of the new graph ends at a matched operator: the matched
      region is gone, with its in-edges. */
  lemma NoEdgeIntoMatched(x: GraphXfer, g: Graph, order: seq<Op>, st: MatchState, dstMap: seq<Op>, e: Edge)
    requires Instantiates(x, dstMap) && Canonical(st.mappedInputs) && WellFormed(g)
    requires forall o :: o in order <==> o in g.inEdges
    requires forall o :: o in st.mappedOps ==> o in g.inEdges
    requires forall j :: 0 <= j < |dstMap| ==> dstMap[j] !in g.inEdges
    requires CreateNewGraph(x, g, order, st, dstMap).Some?
    requires e.dstOp in st.mappedOps
    ensures !InGraph(CreateNewGraph(x, g, order, st, dstMap).value, e)
  {
    forall e0 | Leaving(g, st, e0) ensures Redirect(x, st, dstMap, e0) != Some(e) {
    }
  }
}

=== FILE: pattern.dfy ===
/** Pattern wires (`TensorX`), their ordering (`TensorXCompare`), pattern
    operators (`OpX`) and the rewrite rule's fixed part (`GraphXfer` without its
    live matching state). Pattern operators are named by their index in the
    rule's source or destination operator list instead of by pointer. */
module Pattern {
  import opened Base

  /** A pattern wire. `op == None` is an open wire (the C++ NULL operator)
      whose identity is `idx`; otherwise it is output slot `idx` of the
      pattern operator with index `op` in the same pattern's operator list. */
  datatype TensorX = TensorX(op: Option<nat>, idx: int)

  /** The wire a default-constructed `TensorX` holds. */
  function DefaultTensor(): TensorX {
    TensorX(None, 0)
  }

  /** Operator order of `TensorXCompare`: NULL first, then by index (standing
      in for pointer order). */
  predicate OpLess(a: Option<nat>, b: Option<nat>) {
    match a
    case None => b.Some?
    case Some(x) => b.Some? && x < b.value
  }

  /** `TensorXCompare`: lexicographic, operator first, then slot. */
  predicate TensorXLess(a: TensorX, b: TensorX) {
    if a.op != b.op then OpLess(a.op, b.op) else a.idx < b.idx
  }

  /** `TensorXCompare` is a strict total order whose equivalence classes are
      single wires, so a `std::map` keyed by it holds at most one entry per
      (operator, slot) pair: the Dafny `map` used for `mappedOutputs`. */
  lemma TensorXLessIsStrictTotalOrder(a: TensorX, b: TensorX, c: TensorX)
    ensures !TensorXLess(a, a)
    ensures TensorXLess(a, b) ==> !TensorXLess(b, a)
    ensures TensorXLess(a, b) && TensorXLess(b, c) ==> TensorXLess(a, c)
    ensures (!TensorXLess(a, b) && !TensorXLess(b, a)) <==> a == b
  {
  }

  /** A pattern operator: gate kind, input wires and output wires. Its
      `mapOp` binding lives in the matching state (source side) or in the
      list of instantiated operators (destination side). */
  datatype OpX = OpX(tp: GateType, inputs: seq<TensorX>, outputs: seq<TensorX>)

  /** Every bound input of operator `k` comes from an earlier operator. */
  predicate Topological(ops: seq<OpX>) {
    forall k, j :: 0 <= k < |ops| && 0 <= j < |ops[k].inputs| && ops[k].inputs[j].op.Some? ==>
      ops[k].inputs[j].op.value < k
  }

  /** The first open-wire identity a rule hands out. */
  const FirstTensorId: int := 10

  /** The rule: the open-wire counter, the two operator lists and the fixed
      output-correspondence map. */
  datatype GraphXfer = GraphXfer(
    tensorId: int,
    srcOps: seq<OpX>,
    dstOps: seq<OpX>,
    mappedOutputs: map<TensorX, TensorX>)

  /** What the search needs of a rule: both patterns topologically ordered,
      and every destination wire named by `mappedOutputs` lies in the
      destination pattern. */
  predicate RuleWellFormed(x: GraphXfer) {
    && Topological(x.srcOps)
    && Topological(x.dstOps)
    && (forall t :: t in x.mappedOutputs && x.mappedOutputs[t].op.Some? ==>
          x.mappedOutputs[t].op.value < |x.dstOps|)
  }

  /** `new_tensor`: an open wire carrying the current counter, and the
      incremented counter. */
  function NewTensor(tensorId: int): (r: (TensorX, int))
    ensures r.0.op.None? && r.0.idx == tensorId
    ensures r.1 == tensorId + 1
  {
    (TensorX(None, tensorId), tensorId + 1)
  }

  /** `map_output`: records `src -> dst`, overwriting any earlier entry for
      `src` and leaving every other entry alone. */
  function MapOutput(mo: map<TensorX, TensorX>, src: TensorX, dst: TensorX): (r: map<TensorX, TensorX>)
    ensures r.Keys == mo.Keys + {src}
    ensures r[src] == dst
    ensures forall t :: t in mo && t != src ==> r[t] == mo[t]
  {
    mo[src := dst]
  }
}

=== FILE: search.dfy ===
/** The backtracking driver `run`: a depth-first assignment of concrete
    operators to the source pattern's operators, one per depth, with the
    terminal filters that decide which replacement graphs join the frontier. */
module Search {
  import opened Base
  import opened Pattern
  import opened MultiMap
  import opened Matching
  import opened NewGraph

  // ---------------------------------------------------------------------
  // The environment of a search
  // ---------------------------------------------------------------------

  /** The queries a built graph answers, whose definitions (tasograph.h) are
      not part of this model: loop detection, total cost and structural hash. */
  datatype Oracle = Oracle(hasLoop: EdgeSets -> bool, totalCost: EdgeSets -> int, hash: EdgeSets -> nat)

  /** The caller's bounds: cost threshold and operator-count limit. */
  datatype Bounds = Bounds(threshold: int, maxNumOps: int)

  /** A frontier entry: the replacement graph, together with the matching
      state and the destination operators it was built from. */
  datatype Candidate = Candidate(graph: EdgeSets, state: MatchState, dstMap: seq<Op>)

  /** What `run` adds to: the frontier (in push order), the set of hashes
      already seen, and the context that hands out unique ids. */
  datatype Acc = Acc(frontier: seq<Candidate>, hashes: set<nat>, ctx: Context)

  /** `Done` carries the matching state on return; `Aborted` is a failed
      assertion in `create_new_graph`. */
  datatype RunResult = Done(st: MatchState, acc: Acc) | Aborted

  /** The fixed inputs of a search: a well-formed rule, and a searched graph
      with one in-edge per input slot whose operators `order` enumerates. */
  predicate Setting(x: GraphXfer, g: Graph, order: seq<Op>) {
    && RuleWellFormed(x)
    && WellFormed(g)
    && OneEdgePerSlot(g)
    && (forall o :: o in order ==> o in g.inEdges)
    && (forall o :: o in g.inEdges ==> o in order)
    && (forall a, b :: 0 <= a < b < |order| ==> order[a] != order[b])
  }

  // ---------------------------------------------------------------------
  // Declarative matches
  // ---------------------------------------------------------------------

  /** Source operator `p` is bound by `m` to an operator of `g` of its kind
      and input count, and each of its bound inputs is an edge from the
      operator its producer is bound to. */
  ghost predicate OpMatches(x: GraphXfer, g: Graph, m: map<nat, Op>, p: nat)
    requires p in m && p < |x.srcOps|
  {
    var ins := x.srcOps[p].inputs;
    && m[p] in g.inEdges
    && x.srcOps[p].tp == m[p].gate.tp
    && |ins| == NumInputs(m[p])
    && forall i :: 0 <= i < |ins| && ins[i].op.Some? ==>
         ins[i].op.value in m && HasEdge(g, m[ins[i].op.value], m[p], ins[i].idx, i)
  }

  /** Slot `i` of source operator `p` and slot `i'` of `q` read one open wire. */
  predicate OpenPair(x: GraphXfer, p: nat, i: nat, q: nat, i': nat) {
    && p < |x.srcOps| && i < |x.srcOps[p].inputs| && x.srcOps[p].inputs[i].op.None?
    && q < |x.srcOps| && i' < |x.srcOps[q].inputs| && x.srcOps[q].inputs[i'].op.None?
    && x.srcOps[p].inputs[i].idx == x.srcOps[q].inputs[i'].idx
  }

  /** An occurrence of the source pattern in `g`: every source operator bound,
      no concrete operator bound twice, every binding matching, and all slots
      reading one open wire fed by one and the same producer. */
  ghost predicate IsMatch(x: GraphXfer, g: Graph, m: map<nat, Op>) {
    && (forall p: nat :: p in m <==> p < |x.srcOps|)
    && (forall p, q :: p in m && q in m && p != q ==> m[p] != m[q])
    && (forall p :: p in m && p < |x.srcOps| ==> OpMatches(x, g, m, p))
    && (forall p: nat, i: nat, q: nat, i': nat :: OpenPair(x, p, i, q, i') && p in m && q in m && m[p] in g.inEdges && m[q] in g.inEdges ==>
          SlotObs(g.inEdges[m[p]], i) == SlotObs(g.inEdges[m[q]], i'))
  }

  // ---------------------------------------------------------------------
  // The matching-state invariant
  // ---------------------------------------------------------------------

  /** Source operator `p` is bound consistently with the state: it matches,
      and each of its open slots is fed by the first producer recorded for
      its wire. */
  ghost predicate BoundOk(x: GraphXfer, g: Graph, st: MatchState, p: nat)
    requires p in st.mapOp && p < |x.srcOps| && Canonical(st.mappedInputs)
  {
    && OpMatches(x, g, st.mapOp, p)
    && forall i :: 0 <= i < |x.srcOps[p].inputs| && x.srcOps[p].inputs[i].op.None? ==>
         var f := Find(st.mappedInputs, x.srcOps[p].inputs[i].idx);
         f.Some? && SlotObs(g.inEdges[st.mapOp[p]], i) == [f.value]
  }

  /** The state at depth `depth`: source operators `0 .. depth-1` are bound,
      `mappedOps` is the inverse of the bindings, the multimap is consistent,
      and every binding is sound. */
  ghost predicate Inv(x: GraphXfer, g: Graph, st: MatchState, depth: nat) {
    && depth <= |x.srcOps|
    && (forall p: nat :: p in st.mapOp <==> p < depth)
    && (forall p :: p in st.mapOp ==> st.mapOp[p] in st.mappedOps && st.mappedOps[st.mapOp[p]] == p)
    && (forall o :: o in st.mappedOps ==> st.mappedOps[o] in st.mapOp && st.mapOp[st.mappedOps[o]] == o)
    && Canonical(st.mappedInputs) && Uniform(st.mappedInputs)
    && (forall p :: p in st.mapOp && p < |x.srcOps| ==> BoundOk(x, g, st, p))
  }

  /** The initial state satisfies the invariant at depth 0. */
  lemma InvEmpty(x: GraphXfer, g: Graph)
    ensures Inv(x, g, EmptyState(), 0)
  {
  }

  /** At depth `depth`, the inputs of source operator `depth` name bound
      operators only (the source pattern is topologically ordered). */
  lemma InvInputsBound(x: GraphXfer, g: Graph, st: MatchState, depth: nat)
    requires RuleWellFormed(x) && Inv(x, g, st, depth) && depth < |x.srcOps|
    ensures InputsBound(x.srcOps[depth].inputs, st)
  {
    var ins := x.srcOps[depth].inputs;
    forall i | 0 <= i < |ins| && ins[i].op.Some? ensures ins[i].op.value in st.mapOp {
      assert Topological(x.srcOps);
    }
  }

  /** After `match` at depth `depth`, the new binding is sound. */
  lemma NewBindingOk(x: GraphXfer, g: Graph, st: MatchState, depth: nat, op: Op)
    requires WellFormed(g) && OneEdgePerSlot(g) && op in g.inEdges
    requires Inv(x, g, st, depth) && depth < |x.srcOps|
    requires InputsBound(x.srcOps[depth].inputs, st) && CanMatch(x.srcOps, st, g, depth, op)
    ensures Canonical(Match(x.srcOps, st, g, depth, op).mappedInputs)
    ensures depth in Match(x.srcOps, st, g, depth, op).mapOp
    ensures BoundOk(x, g, Match(x.srcOps, st, g, depth, op), depth)
  {
    var ins := x.srcOps[depth].inputs;
    var st' := Match(x.srcOps, st, g, depth, op);
    assert SlotsSingle(g, op);
    CanMatchIff(x.srcOps, st, g, depth, op);
    MatchFacts(x.srcOps, st, g, depth, op);
    forall i | 0 <= i < |ins| && ins[i].op.Some?
      ensures ins[i].op.value in st'.mapOp && HasEdge(g, st'.mapOp[ins[i].op.value], op, ins[i].idx, i)
    {
      assert SlotAccepted(ins, st, g, op, i);
    }
    forall i | 0 <= i < |ins| && ins[i].op.None?
      ensures var f := Find(st'.mappedInputs, ins[i].idx); f.Some? && SlotObs(g.inEdges[op], i) == [f.value]
    {
      var f := Find(st'.mappedInputs, ins[i].idx);
      SingleSlotProducer(g, op, i, f.value.op, f.value.idx);
    }
  }

  /** After `match` at depth `depth`, the earlier bindings stay sound. */
  lemma OldBindingOk(x: GraphXfer, g: Graph, st: MatchState, depth: nat, op: Op, p: nat)
    requires WellFormed(g) && OneEdgePerSlot(g) && op in g.inEdges
    requires Inv(x, g, st, depth) && depth < |x.srcOps| && p < depth
    requires InputsBound(x.srcOps[depth].inputs, st) && CanMatch(x.srcOps, st, g, depth, op)
    ensures Canonical(Match(x.srcOps, st, g, depth, op).mappedInputs)
    ensures p in Match(x.srcOps, st, g, depth, op).mapOp
    ensures BoundOk(x, g, Match(x.srcOps, st, g, depth, op), p)
  {
    var ins := x.srcOps[p].inputs;
    var st' := Match(x.srcOps, st, g, depth, op);
    assert SlotsSingle(g, op);
    MatchFacts(x.srcOps, st, g, depth, op);
    assert BoundOk(x, g, st, p);
    assert st'.mapOp[p] == st.mapOp[p];
    forall i | 0 <= i < |ins| && ins[i].op.Some?
      ensures ins[i].op.value in st'.mapOp && HasEdge(g, st'.mapOp[ins[i].op.value], st'.mapOp[p], ins[i].idx, i)
    {
      assert ins[i].op.value in st.mapOp;
    }
    forall i | 0 <= i < |ins| && ins[i].op.None?
      ensures var f := Find(st'.mappedInputs, ins[i].idx); f.Some? && SlotObs(g.inEdges[st'.mapOp[p]], i) == [f.value]
    {
      assert Find(st.mappedInputs, ins[i].idx).Some?;
    }
  }

  /** `match` on an accepted, unbound operator takes the invariant from depth
      `depth` to depth `depth + 1`. */
  lemma InvStep(x: GraphXfer, g: Graph, st: MatchState, depth: nat, op: Op)
    requires WellFormed(g) && OneEdgePerSlot(g) && op in g.inEdges
    requires Inv(x, g, st, depth) && depth < |x.srcOps| && op !in st.mappedOps
    requires InputsBound(x.srcOps[depth].inputs, st) && CanMatch(x.srcOps, st, g, depth, op)
    ensures Inv(x, g, Match(x.srcOps, st, g, depth, op), depth + 1)
  {
    assert SlotsSingle(g, op);
    MatchFacts(x.srcOps, st, g, depth, op);
    MatchKeepsBindings(x, g, st, depth, op);
    MatchKeepsBoundOk(x, g, st, depth, op);
  }

  /** After `match`, operators `0 .. depth` are bound, and `mapOp` and
      `mappedOps` remain inverse to each other. */
  lemma MatchKeepsBindings(x: GraphXfer, g: Graph, st: MatchState, depth: nat, op: Op)
    requires op in g.inEdges && Inv(x, g, st, depth) && depth < |x.srcOps| && op !in st.mappedOps
    ensures var st' := Match(x.srcOps, st, g, depth, op);
      && (forall p: nat :: p in st'.mapOp <==> p < depth + 1)
      && (forall p :: p in st'.mapOp ==> st'.mapOp[p] in st'.mappedOps && st'.mappedOps[st'.mapOp[p]] == p)
      && (forall o :: o in st'.mappedOps ==> st'.mappedOps[o] in st'.mapOp && st'.mapOp[st'.mappedOps[o]] == o)
  {
    var st' := Match(x.srcOps, st, g, depth, op);
    forall o | o in st'.mappedOps ensures st'.mappedOps[o] in st'.mapOp && st'.mapOp[st'.mappedOps[o]] == o {
      if o != op {
        assert st'.mappedOps[o] == st.mappedOps[o] < depth;
      }
    }
  }

  /** After `match`, every bound source operator, old and new, is bound
      consistently. */
  lemma MatchKeepsBoundOk(x: GraphXfer, g: Graph, st: MatchState, depth: nat, op: Op)
    requires WellFormed(g) && OneEdgePerSlot(g) && op in g.inEdges
    requires Inv(x, g, st, depth) && depth < |x.srcOps|
    requires InputsBound(x.srcOps[depth].inputs, st) && CanMatch(x.srcOps, st, g, depth, op)
    ensures var st' := Match(x.srcOps, st, g, depth, op);
      forall p :: p in st'.mapOp && p < |x.srcOps| ==> BoundOk(x, g, st', p)
  {
    var st' := Match(x.srcOps, st, g, depth, op);
    forall p | p in st'.mapOp && p < |x.srcOps| ensures BoundOk(x, g, st', p) {
      if p == depth {
        NewBindingOk(x, g, st, depth, op);
      } else {
        OldBindingOk(x, g, st, depth, op, p);
      }
    }
  }

  /** A complete, invariant state is an occurrence of the source pattern. */
  lemma InvIsMatch(x: GraphXfer, g: Graph, st: MatchState)
    requires Inv(x, g, st, |x.srcOps|)
    ensures IsMatch(x, g, st.mapOp)
  {
    var m := st.mapOp;
    forall p, q | p in m && q in m && p != q ensures m[p] != m[q] {
      assert st.mappedOps[m[p]] == p && st.mappedOps[m[q]] == q;
    }
    forall p: nat, i: nat, q: nat, i': nat | OpenPair(x, p, i, q, i') && p in m && q in m && m[p] in g.inEdges && m[q] in g.inEdges
      ensures SlotObs(g.inEdges[m[p]], i) == SlotObs(g.inEdges[m[q]], i')
    {
      assert BoundOk(x, g, st, p) && BoundOk(x, g, st, q);
    }
  }

  // ---------------------------------------------------------------------
  // The frontier
  // ---------------------------------------------------------------------

  /** `b` extends `a`: the frontier only grows at its end, every pushed
      graph's hash was new and is now recorded, no other hash is added, the
      library is untouched and unique ids are only consumed. */
  ghost predicate Grows(orc: Oracle, a: Acc, b: Acc) {
    && |a.frontier| <= |b.frontier|
    && b.frontier[..|a.frontier|] == a.frontier
    && b.ctx.library == a.ctx.library
    && a.ctx.nextGuid <= b.ctx.nextGuid
    && (forall i :: |a.frontier| <= i < |b.frontier| ==> orc.hash(b.frontier[i].graph) !in a.hashes)
    && (forall i, j :: |a.frontier| <= i < j < |b.frontier| ==>
          orc.hash(b.frontier[i].graph) != orc.hash(b.frontier[j].graph))
    && (forall h :: h in b.hashes <==>
          h in a.hashes || exists i :: |a.frontier| <= i < |b.frontier| && h == orc.hash(b.frontier[i].graph))
  }

  lemma GrowsTrans(orc: Oracle, a: Acc, b: Acc, c: Acc)
    requires Grows(orc, a, b) && Grows(orc, b, c)
    ensures Grows(orc, a, c)
  {
    assert c.frontier[..|a.frontier|] == c.frontier[..|b.frontier|][..|a.frontier|];
    forall i | |a.frontier| <= i < |b.frontier| ensures c.frontier[i] == b.frontier[i] {
      assert c.frontier[i] == c.frontier[..|b.frontier|][i];
    }
    forall i, j | |a.frontier| <= i < j < |c.frontier|
      ensures orc.hash(c.frontier[i].graph) != orc.hash(c.frontier[j].graph)
    {
      if i < |b.frontier| <= j {
        assert orc.hash(c.frontier[i].graph) in b.hashes;
      }
    }
    forall h | h in c.hashes
      ensures h in a.hashes || exists i :: |a.frontier| <= i < |c.frontier| && h == orc.hash(c.frontier[i].graph)
    {
      if h in b.hashes && h !in a.hashes {
        var i :| |a.frontier| <= i < |b.frontier| && h == orc.hash(b.frontier[i].graph);
        assert h == orc.hash(c.frontier[i].graph);
      }
    }
  }

  /** A frontier entry `run` may push: a complete occurrence of the source
      pattern whose outgoing edges the boundary check covered, the graph
      `create_new_graph` builds from it, loop-free, below the cost threshold
      and below the operator-count limit. */
  ghost predicate Accepted(x: GraphXfer, g: Graph, order: seq<Op>, orc: Oracle, bnd: Bounds, c: Candidate)
    requires Setting(x, g, order)
  {
    && IsMatch(x, g, c.state.mapOp)
    && BoundaryCovered(x, g, c.state)
    && Canonical(c.state.mappedInputs)
    && Instantiates(x, c.dstMap)
    && CreateNewGraph(x, g, order, c.state, c.dstMap) == Some(c.graph)
    && !orc.hasLoop(c.graph)
    && orc.totalCost(c.graph) < bnd.threshold
    && |c.graph| < bnd.maxNumOps
  }

  /** Every entry pushed between `a` and `b` is accepted and extends the
      bindings `base`. */
  ghost predicate PushedAccepted(x: GraphXfer, g: Graph, order: seq<Op>, orc: Oracle, bnd: Bounds,
                                 base: map<nat, Op>, a: Acc, b: Acc)
    requires Setting(x, g, order)
  {
    forall i :: |a.frontier| <= i < |b.frontier| ==>
      && Accepted(x, g, order, orc, bnd, b.frontier[i])
      && forall p :: p in base ==> p in b.frontier[i].state.mapOp && b.frontier[i].state.mapOp[p] == base[p]
  }

  // ---------------------------------------------------------------------
  // When the assertions of create_new_graph hold
  // ---------------------------------------------------------------------

  /** Open wire `k` is an input of some source operator. */
  predicate ReadBySource(x: GraphXfer, k: int) {
    exists p, i :: 0 <= p < |x.srcOps| && 0 <= i < |x.srcOps[p].inputs| && x.srcOps[p].inputs[i] == TensorX(None, k)
  }

  /** Every open wire the destination side reads, as an operator input or as
      the wire a source operator's output is redirected to, is also read by
      the source side. */
  ghost predicate RuleClosed(x: GraphXfer) {
    && (forall j, i :: 0 <= j < |x.dstOps| && 0 <= i < |x.dstOps[j].inputs| && x.dstOps[j].inputs[i].op.None? ==>
          ReadBySource(x, x.dstOps[j].inputs[i].idx))
    && (forall t :: t in x.mappedOutputs && t.op.Some? && x.mappedOutputs[t].op.None? ==> ReadBySource(x, x.mappedOutputs[t].idx))
  }

  /** In a complete match every open wire the source pattern reads has a recorded
      producer. */
  lemma CompleteMatchRecords(x: GraphXfer, g: Graph, st: MatchState, k: int)
    requires Inv(x, g, st, |x.srcOps|) && ReadBySource(x, k)
    ensures Find(st.mappedInputs, k).Some?
  {
    var p, i :| 0 <= p < |x.srcOps| && 0 <= i < |x.srcOps[p].inputs| && x.srcOps[p].inputs[i] == TensorX(None, k);
    assert BoundOk(x, g, st, p);
  }

  /** For a closed rule, a complete match that passes the boundary check
      always yields a graph: neither assertion of `create_new_graph` fails. */
  lemma ClosedRuleBuilds(x: GraphXfer, g: Graph, order: seq<Op>, st: MatchState, dstMap: seq<Op>)
    requires Setting(x, g, order) && Inv(x, g, st, |x.srcOps|) && Instantiates(x, dstMap)
    requires BoundaryCovered(x, g, st)
    ensures RuleClosed(x) ==> CreateNewGraph(x, g, order, st, dstMap).Some?
  {
    if !RuleClosed(x) {
      return;
    }
    BoundaryCoveredFindsOutputs(x, g, st);
    forall e | Leaving(g, st, e) ensures Redirect(x, st, dstMap, e).Some? {
      var t := x.mappedOutputs[TensorX(Some(st.mappedOps[e.srcOp]), e.srcIdx)];
      if t.op.None? {
        CompleteMatchRecords(x, g, st, t.idx);
      }
    }
    forall j, i | 0 <= j < |x.dstOps| && 0 <= i < |x.dstOps[j].inputs|
      ensures ResolveDst(st.mappedInputs, dstMap, x.dstOps[j].inputs[i]).Some?
    {
      if x.dstOps[j].inputs[i].op.None? {
        CompleteMatchRecords(x, g, st, x.dstOps[j].inputs[i].idx);
      } else {
        assert Topological(x.dstOps);
      }
    }
  }

  // ---------------------------------------------------------------------
  // run
  // ---------------------------------------------------------------------

  /** The terminal case of `run` on a complete match `st`, with its filters
      in the order `run` applies them: instantiate the destination operators, check
      the boundary, build the graph (aborting where `create_new_graph` asserts),
      reject loops, then push if cost and size are below the bounds and
      the hash is new. */
  function Terminal(x: GraphXfer, g: Graph, order: seq<Op>, orc: Oracle, bnd: Bounds, st: MatchState, acc: Acc): (r: Option<Acc>)
    requires Setting(x, g, order) && Inv(x, g, st, |x.srcOps|)
    ensures RuleClosed(x) ==> r.Some?
    ensures r.Some? ==> Grows(orc, acc, r.value) && |r.value.frontier| <= |acc.frontier| + 1
    ensures r.Some? ==> PushedAccepted(x, g, order, orc, bnd, st.mapOp, acc, r.value)
    ensures r.Some? && |r.value.frontier| > |acc.frontier| ==>
      var dm := CreateDstOps(x.dstOps, acc.ctx).0;
      && dm.Some? && Instantiates(x, dm.value) && CreateNewGraph(x, g, order, st, dm.value).Some?
      && r.value.frontier[|acc.frontier|] == Candidate(CreateNewGraph(x, g, order, st, dm.value).value, st, dm.value)
    ensures var dm := CreateDstOps(x.dstOps, acc.ctx).0;
      r.None? <==> dm.Some? && BoundaryCovered(x, g, st) && CreateNewGraph(x, g, order, st, dm.value).None?
    ensures var dm := CreateDstOps(x.dstOps, acc.ctx).0;
      r.Some? ==> (|r.value.frontier| > |acc.frontier| <==>
        && dm.Some? && BoundaryCovered(x, g, st)
        && var ng := CreateNewGraph(x, g, order, st, dm.value).value;
           !orc.hasLoop(ng) && orc.totalCost(ng) < bnd.threshold && |ng| < bnd.maxNumOps && orc.hash(ng) !in acc.hashes)
  {
    var (dm, ctx') := CreateDstOps(x.dstOps, acc.ctx);
    var skipped := Acc(acc.frontier, acc.hashes, ctx');
    if dm.None? || !BoundaryCovered(x, g, st) then
      SkipGrows(orc, acc, ctx');
      Some(skipped)
    else
      ClosedRuleBuilds(x, g, order, st, dm.value);
      match CreateNewGraph(x, g, order, st, dm.value)
      case None => None
      case Some(ng) =>
        if orc.hasLoop(ng) then
          SkipGrows(orc, acc, ctx');
          Some(skipped)
        else if orc.totalCost(ng) < bnd.threshold && |ng| < bnd.maxNumOps && orc.hash(ng) !in acc.hashes then
          var c := Candidate(ng, st, dm.value);
          var r := Acc(acc.frontier + [c], acc.hashes + {orc.hash(ng)}, ctx');
          PushGrows(orc, acc, c, ctx');
          InvIsMatch(x, g, st);
          assert Accepted(x, g, order, orc, bnd, c);
          PushAccepted(x, g, order, orc, bnd, st.mapOp, acc, c, ctx');
          Some(r)
        else
          SkipGrows(orc, acc, ctx');
          Some(skipped)
  }

  /** When the searched graph's ids are all below the id counter, the graph
      `run` pushes for a complete match has no edge into a matched operator:
      the destination operators are new, so the matched region is replaced. */
  lemma TerminalDropsMatched(x: GraphXfer, g: Graph, order: seq<Op>, orc: Oracle, bnd: Bounds,
                             st: MatchState, acc: Acc, e: Edge)
    requires Setting(x, g, order) && Inv(x, g, st, |x.srcOps|) && GuidsBelow(g, acc.ctx.nextGuid)
    requires e.dstOp in st.mappedOps
    ensures var r := Terminal(x, g, order, orc, bnd, st, acc);
      r.Some? && |r.value.frontier| > |acc.frontier| ==> !InGraph(r.value.frontier[|acc.frontier|].graph, e)
  {
    var r := Terminal(x, g, order, orc, bnd, st, acc);
    if r.Some? && |r.value.frontier| > |acc.frontier| {
      var dm := CreateDstOps(x.dstOps, acc.ctx).0;
      DstOpsFresh(x.dstOps, acc.ctx, g);
      forall o | o in st.mappedOps ensures o in g.inEdges {
        assert BoundOk(x, g, st, st.mappedOps[o]);
      }
      NoEdgeIntoMatched(x, g, order, st, dm.value, e);
    }
  }

  /** Skipping a candidate changes only the context. */
  lemma SkipGrows(orc: Oracle, acc: Acc, ctx: Context)
    requires ctx.library == acc.ctx.library && acc.ctx.nextGuid <= ctx.nextGuid
    ensures Grows(orc, acc, Acc(acc.frontier, acc.hashes, ctx))
  {
    assert acc.frontier[..|acc.frontier|] == acc.frontier;
  }

  /** Pushing a candidate with a new hash and recording the hash. */
  lemma PushGrows(orc: Oracle, acc: Acc, c: Candidate, ctx: Context)
    requires ctx.library == acc.ctx.library && acc.ctx.nextGuid <= ctx.nextGuid
    requires orc.hash(c.graph) !in acc.hashes
    ensures Grows(orc, acc, Acc(acc.frontier + [c], acc.hashes + {orc.hash(c.graph)}, ctx))
  {
    var b := Acc(acc.frontier + [c], acc.hashes + {orc.hash(c.graph)}, ctx);
    assert b.frontier[..|acc.frontier|] == acc.frontier;
    assert b.frontier[|acc.frontier|] == c;
  }

  lemma PushAccepted(x: GraphXfer, g: Graph, order: seq<Op>, orc: Oracle, bnd: Bounds,
                     base: map<nat, Op>, acc: Acc, c: Candidate, ctx: Context)
    requires Setting(x, g, order) && Accepted(x, g, order, orc, bnd, c)
    requires forall p :: p in base ==> p in c.state.mapOp && c.state.mapOp[p] == base[p]
    ensures PushedAccepted(x, g, order, orc, bnd, base, acc,
                           Acc(acc.frontier + [c], acc.hashes + {orc.hash(c.graph)}, ctx))
  {
    var b := Acc(acc.frontier + [c], acc.hashes + {orc.hash(c.graph)}, ctx);
    assert b.frontier[|acc.frontier|] == c;
  }

  /** What `run` promises from state `st` and accumulator `acc`: it does not
      abort for a closed rule, and unless it aborts it returns with the
      matching state it was given, a grown frontier and only accepted entries
      extending the bindings of `st`. */
  ghost predicate RunPost(x: GraphXfer, g: Graph, order: seq<Op>, orc: Oracle, bnd: Bounds,
                          st: MatchState, acc: Acc, r: RunResult)
    requires Setting(x, g, order)
  {
    && (RuleClosed(x) ==> r.Done?)
    && (r.Done? ==> r.st == st && Grows(orc, acc, r.acc) && PushedAccepted(x, g, order, orc, bnd, st.mapOp, acc, r.acc))
  }

  /** `run(depth, ...)`. */
  function Run(x: GraphXfer, g: Graph, order: seq<Op>, orc: Oracle, bnd: Bounds,
               st: MatchState, depth: nat, acc: Acc): (r: RunResult)
    requires Setting(x, g, order) && Inv(x, g, st, depth)
    ensures RunPost(x, g, order, orc, bnd, st, acc, r)
    decreases |x.srcOps| - depth, |order| + 1
  {
    if depth >= |x.srcOps| then
      match Terminal(x, g, order, orc, bnd, st, acc)
      case None => Aborted
      case Some(acc') => Done(st, acc')
    else RunLoop(x, g, order, orc, bnd, st, depth, 0, acc)
  }

  /** The loop of `run`'s recursive case, from position `j` of `order`: each
      operator `can_match` accepts and `mappedOps` does not hold is bound,
      searched below, and unbound again. */
  function RunLoop(x: GraphXfer, g: Graph, order: seq<Op>, orc: Oracle, bnd: Bounds,
                   st: MatchState, depth: nat, j: nat, acc: Acc): (r: RunResult)
    requires Setting(x, g, order) && Inv(x, g, st, depth) && depth < |x.srcOps| && j <= |order|
    ensures RunPost(x, g, order, orc, bnd, st, acc, r)
    decreases |x.srcOps| - depth, |order| - j
  {
    if j == |order| then Done(st, acc)
    else
      var op := order[j];
      InvInputsBound(x, g, st, depth);
      if CanMatch(x.srcOps, st, g, depth, op) && op !in st.mappedOps then
        InvStep(x, g, st, depth, op);
        var st1 := Match(x.srcOps, st, g, depth, op);
        var sub := Run(x, g, order, orc, bnd, st1, depth + 1, acc);
        if sub.Aborted? then Aborted
        else
          UnmatchAfterRun(x, g, st, depth, op);
          var st2 := Unmatch(x.srcOps, sub.st, depth, op);
          var rest := RunLoop(x, g, order, orc, bnd, st2, depth, j + 1, sub.acc);
          LoopComposes(x, g, order, orc, bnd, st, st1, acc, sub.acc, rest);
          rest
      else RunLoop(x, g, order, orc, bnd, st, depth, j + 1, acc)
  }

  /** `unmatch` after the recursive call, which handed back the state `match`
      produced, restores the state of the loop. */
  lemma UnmatchAfterRun(x: GraphXfer, g: Graph, st: MatchState, depth: nat, op: Op)
    requires WellFormed(g) && OneEdgePerSlot(g) && op in g.inEdges
    requires Inv(x, g, st, depth) && depth < |x.srcOps| && op !in st.mappedOps
    requires InputsBound(x.srcOps[depth].inputs, st) && CanMatch(x.srcOps, st, g, depth, op)
    ensures UnmatchDefined(x.srcOps, Match(x.srcOps, st, g, depth, op), depth)
    ensures Unmatch(x.srcOps, Match(x.srcOps, st, g, depth, op), depth, op) == st
  {
    assert SlotsSingle(g, op);
    MatchUnmatchRestores(x.srcOps, st, g, depth, op);
    assert st.mapOp - {depth} == st.mapOp;
  }

  /** The loop's promise after one bound candidate: the recursive call's
      promise from the bound state, followed by the rest of the loop's. */
  lemma LoopComposes(x: GraphXfer, g: Graph, order: seq<Op>, orc: Oracle, bnd: Bounds,
                     st: MatchState, st1: MatchState, acc: Acc, mid: Acc, rest: RunResult)
    requires Setting(x, g, order)
    requires forall p :: p in st.mapOp ==> p in st1.mapOp && st1.mapOp[p] == st.mapOp[p]
    requires Grows(orc, acc, mid) && PushedAccepted(x, g, order, orc, bnd, st1.mapOp, acc, mid)
    requires RuleClosed(x) ==> rest.Done?
    requires RunPost(x, g, order, orc, bnd, st, mid, rest)
    ensures RunPost(x, g, order, orc, bnd, st, acc, rest)
  {
    if rest.Done? {
      var b := rest.acc;
      GrowsTrans(orc, acc, mid, b);
      forall i | |acc.frontier| <= i < |b.frontier|
        ensures Accepted(x, g, order, orc, bnd, b.frontier[i])
        ensures forall p :: p in st.mapOp ==> p in b.frontier[i].state.mapOp && b.frontier[i].state.mapOp[p] == st.mapOp[p]
      {
        if i < |mid.frontier| {
          assert b.frontier[i] == b.frontier[..|mid.frontier|][i] == mid.frontier[i];
        }
      }
    }
  }
}
